=== FILE: README.md ===
# SwiftFutures in Dafny

This project is a model of the core of SwiftFutures. SwiftFutures is a small Swift library of continuation-passing futures. The model covers four parts:

- **`Either`** (`either.dfy`, module `Either`). This is the success/failure sum type with `fmap` and `flatMap`.
- **`Future`** (`future.dfy`, module `Future`). A Swift `Future<V>` is only its `get : (V -> ()) -> ()`. Here a future is a total function `(V -> R) -> R` over an answer type `R`. The module has the combinators `fmap`, `flatMap`, `pure`, both `lift`s, `<%>`, `<*>`, both forms of `>>-`, and `>>|`. Their functor and monad laws are proved pointwise for every continuation. When `R` is a trace, registration order and single delivery become observable.
- **The completion cell** (`cell.dfy`, module `Completion`). `CompletionFuture` and `AsyncBlockChain` contain the same class. It has two optional slots: a buffered `result` and a waiting consumer `getResult`. There are two transitions: `closure` (fulfil) and `get` (await). The cell is modelled as an immutable record, and each transition returns the new cell together with the consumer call it makes. Runs of calls are modelled too, and so is the abstract rendezvous the cell implements.
- **Block chaining** (`chaining.dfy`, module `Chaining`). These are `asyncChain`, `>>>` and `>>|`, each in its stage form and its terminal form. They are modelled over a world with four parts:
  - a sequence of cells;
  - the main dispatch queue (first in, first out);
  - a log of what the stages did;
  - a `Consumer` datatype standing for the closures the operators register.

  A completion-style function completes either before it returns (`Now`) or by dispatching the call to the main queue (`Later`), as the tests' `dispatch_async` does. `ChainRuns` covers any chain built from `asyncChain`, any number of stages, and any terminal form. It proves that each stage runs exactly once, in program order, and that the terminal receives the composition of the stages. It also proves that every cell ends empty and the queue ends idle.

`scenarios.dfy` (module `Scenarios`) states the library's test scenarios over the model, the example controller's chain, and two further `>>-` chains built from the tests' `asyncAdd` (`Scenarios.BindChainScenario` and `Scenarios.FoldScenario`, with the general `Scenarios.BindAllAdds`). `optional.dfy` holds Swift's `Optional`.

Two conventions run through the model:

- **`Yields(f, v)`** means that for every continuation `k`, `f(k) == k(v)`. In other words, `f` calls its continuation exactly once, with `v`, and does nothing else.
- **`Extensional(f)`** means `f` observes its continuation only by calling it. Dafny does not identify functions that agree pointwise. The laws that eta-expand or re-associate continuations therefore take `Extensional` as a hypothesis. Every future that `Yields` something is extensional (`Future.YieldsIsExtensional`).

## Model

| member | source | states |
|---|---|---|
| Either.Fmap | SwiftFutures/Either.swift:25-30 | The result is a success exactly when the input is. An error keeps its payload. |
| Either.FlatMap | SwiftFutures/Either.swift:36-41 | An error short-circuits to the same error. A success result can only come from a success input. |
| Either.FmapValue | SwiftFutures/Either.swift:27 | `Value(v).fmap(f) == Value(f(v))` |
| Either.FmapError | SwiftFutures/Either.swift:28 | `Error(e).fmap(f) == Error(e)`, whatever `f` is. |
| Either.FlatMapValue | SwiftFutures/Either.swift:38 | `Value(v).flatMap(f)` is `f(v)` verbatim, including when `f` returns an error. |
| Either.FlatMapError | SwiftFutures/Either.swift:39 | `Error(e).flatMap(f) == Error(e)`, whatever `f` is. |
| Either.FmapIdentity | SwiftFutures/Either.swift:25-30 | Functor identity law. |
| Either.FmapComposition | SwiftFutures/Either.swift:25-30 | Functor composition law. |
| Either.FlatMapRightIdentity | SwiftFutures/Either.swift:36-41 | `x.flatMap(Value) == x` |
| Either.FlatMapAssociativity | SwiftFutures/Either.swift:36-41 | Monad associativity of `flatMap`. |
| Either.FmapIsFlatMapValue | SwiftFutures/Either.swift:25-41 | `fmap(f)` is `flatMap` of `Value` after `f`. |
| Future.YieldsIsExtensional | SwiftFutures/Future.swift:24-27 | A future that delivers exactly once calls its continuation as a black box. |
| Future.Pure | SwiftFutures/Future.swift:59-61 | `pure(v)` calls every continuation exactly once, at once, with `v`. |
| Future.Fmap | SwiftFutures/Future.swift:37-39 | If `f` delivers `a`, then `f.fmap(g)` delivers `g(a)`. Extensionality is preserved. |
| Future.FlatMap | SwiftFutures/Future.swift:47-49 | If `f` delivers `a` and `g(a)` delivers `b`, then `f.flatMap(g)` delivers `b`. |
| Future.MapOp | SwiftFutures/Future.swift:94-96 | If `f` delivers `a`, then `g <%> f` delivers `g(a)`. |
| Future.Apply | SwiftFutures/Future.swift:106-108 | If `lhs` delivers `fn` and `rhs` delivers `a`, then `lhs <*> rhs` delivers `fn(a)`. |
| Future.ApplyExtensional | SwiftFutures/Future.swift:106-108 | `<*>` of two extensional futures is extensional: continuations that agree pointwise give the same answer. |
| Future.Bind | SwiftFutures/Future.swift:118-120 | If `lhs` delivers `a` and `rhs(a)` delivers `b`, then `lhs >>- rhs` delivers `b`. |
| Future.Then | SwiftFutures/Future.swift:129-131 | If `lhs` delivers anything and `rhs()` delivers `b`, then `lhs >>\| rhs` delivers `b`. |
| Future.Finish | SwiftFutures/Future.swift:139-141 | The terminal `lhs >>- rhs` answers `rhs(a)` when `lhs` delivers `a`. |
| Future.LiftOptional | SwiftFutures/Future.swift:71-73 | If `f` delivers `a`, then `lift(f)` delivers `.Some(a)`. |
| Future.LiftEither | SwiftFutures/Future.swift:82-84 | If `f` delivers `a`, then `lift(f)` delivers `.Value(a)`. |
| Future.FmapIdentity | SwiftFutures/Future.swift:37-39 | `f.fmap(id)` answers like `f` for every continuation. |
| Future.FmapComposition | SwiftFutures/Future.swift:37-39 | `f.fmap(g).fmap(h)` answers like `f.fmap(h ∘ g)`. |
| Future.FmapIsBindPure | SwiftFutures/Future.swift:37-39 | `f.fmap(g)` answers like `f >>- (pure ∘ g)`. |
| Future.BindLeftIdentity | SwiftFutures/Future.swift:59-61 | `pure(v) >>- g` answers like `g(v)`. |
| Future.BindRightIdentity | SwiftFutures/Future.swift:118-120 | `f >>- pure` answers like `f`. |
| Future.BindAssociativity | SwiftFutures/Future.swift:118-120 | `(f >>- g) >>- h` answers like `f >>- (x => g(x) >>- h)`. |
| Future.FlatMapIsBind | SwiftFutures/Future.swift:47-49 | `flatMap` and `>>-` answer alike. |
| Future.MapOpIsFmap | SwiftFutures/Future.swift:94-96 | `g <%> f` answers exactly like `f.fmap(g)`. |
| Future.ApplyIsBindFmap | SwiftFutures/Future.swift:106-108 | `lhs <*> rhs` is: bind `rhs`, then map "apply to the value" over `lhs`. |
| Future.ThenIsBindConst | SwiftFutures/Future.swift:129-131 | `lhs >>\| rhs` is `>>-` with a function that ignores its argument. |
| Future.LiftOptionalIsFmap | SwiftFutures/Future.swift:71-73 | Lifting to `Optional` is `fmap(Some)`. |
| Future.LiftOptionalNeverNone | SwiftFutures/Future.swift:71-73 | What a continuation does with `None` never affects the outcome. |
| Future.LiftEitherNeverError | SwiftFutures/Future.swift:82-84 | What a continuation does with an `Error` never affects the outcome. |
| Future.ThenIgnoresValue | SwiftFutures/Future.swift:129-131 | `>>\|` gives the same outcome whatever value `lhs` delivers: mapping any function over `lhs` first changes nothing. |
| Future.FinishBind | SwiftFutures/Future.swift:139-141 | Ending `f >>- g` with `k` is ending `f` with a consumer that ends `g(a)` with `k`. |
| Future.YieldsObservedOnce | SwiftFutures/Future.swift:24-27 | A future that yields `v` hands a recording continuation exactly one value, `v`. |
| Future.ApplyRegistersRhsFirst | SwiftFutures/Future.swift:106-108 | `<*>` registers on `rhs`, then on `lhs`, then delivers `fn(a)` once. |
| Future.ThenRegistersRhsAfterLhs | SwiftFutures/Future.swift:129-131 | `>>\|` registers on `rhs()` only after `lhs` has delivered. |
| Future.ThenWaitsForLhs | SwiftFutures/Future.swift:129-131 | If `lhs` never delivers, `rhs` is never used. |
| Future.BindWaitsForLhs | SwiftFutures/Future.swift:118-120 | If `lhs` never delivers, `rhs` is never called. |
| Completion.Fulfil | SwiftFutures/CompletionFuture.swift:21-30 | With a consumer waiting, that consumer is called once with the value, the slot is cleared, and `result` is untouched. Otherwise the value is stored, overwriting any earlier one. |
| Completion.Await | SwiftFutures/CompletionFuture.swift:32-41 | With a stored result, the consumer is called with it at once and `result` is cleared. Otherwise the consumer is stored, overwriting any earlier one. |
| Completion.FulfilRefinesRendezvous | SwiftFutures/CompletionFuture.swift:21-30 | On a cell with at most one slot full, `closure` is the rendezvous's fulfil. |
| Completion.AwaitRefinesRendezvous | SwiftFutures/CompletionFuture.swift:32-41 | On a cell with at most one slot full, `get` is the rendezvous's await. |
| Completion.RunKeepsExclusive | SwiftFutures/CompletionFuture.swift:14-41 | No run of calls ever fills both slots of a cell that had at most one filled. |
| Completion.FreshCellStaysExclusive | SwiftFutures/CompletionFuture.swift:14-41 | From a fresh cell, at most one of `result` and `getResult` is ever set. |
| Completion.RunDeliversOnlyWhatWasGiven | SwiftFutures/CompletionFuture.swift:21-41 | Every consumer call pairs a consumer that was registered with a value that was supplied. |
| Completion.RunCallsAtMostOncePerOp | SwiftFutures/CompletionFuture.swift:21-41 | A run makes at most one consumer call per transition. |
| Completion.RunCallsAtMostOncePerPut | SwiftFutures/CompletionFuture.swift:21-41 | A run makes no more consumer calls than it has `closure` calls, plus one for a value already buffered. A value still buffered at the end tightens the bound by one. |
| Completion.RunCallsAtMostOncePerGet | SwiftFutures/CompletionFuture.swift:21-41 | A run makes no more consumer calls than it has `get` calls, plus one for a consumer already waiting. A consumer still waiting at the end tightens the bound by one. |
| Completion.FulfilThenAwait | SwiftFutures/CompletionFuture.swift:21-41 | Fulfil, then await: one call with the value, and the cell ends empty. |
| Completion.AwaitThenFulfil | SwiftFutures/CompletionFuture.swift:21-41 | Await, then fulfil: one call with the value, and the cell ends empty. |
| Completion.OrderIndependent | SwiftFuturesTests/CompletionFutureTests.swift:39-69 | Both orders give the same cell and the same single call. |
| Completion.LastPutOverwrites | SwiftFutures/CompletionFuture.swift:26-28 | Fulfils with nobody waiting keep only the last value, and call nobody. |
| Completion.LastGetOverwrites | SwiftFutures/CompletionFuture.swift:37-38 | Awaits with no value keep only the last consumer, and call nobody. |
| Completion.RunAppend | SwiftFutures/CompletionFuture.swift:21-41 | Running `a + b` is running `a`, then `b` on the resulting cell. |
| Completion.AwaitSeesLastPut | SwiftFutures/CompletionFuture.swift:27 | After several fulfils, an await sees only the last value. |
| Completion.PutReachesLastGet | SwiftFutures/CompletionFuture.swift:38 | After several awaits, a fulfil reaches only the last consumer. |
| Chaining.Closure | SwiftFutures/BlockChaining.swift:21-30 | `closure` leaves its own cell as the cell's `closure` transition leaves it. Older cells are untouched, no cell is allocated, closures keep pointing forward, and the log and the queue are only appended to. With nobody waiting, only the value is stored. With a consumer waiting, that consumer is called with the value: a stage logs its run first, and a terminal consumer's effect is the only other change. |
| Chaining.Get | SwiftFutures/BlockChaining.swift:32-41 | `get` leaves its own cell as the cell's `get` transition leaves it. Older cells are untouched, and the log and the queue are only appended to. With no value buffered, only the consumer is stored. With a value buffered, `k` is called with it at once: a stage logs its run first, and a terminal consumer's effect is the only other change. |
| Chaining.Deliver | SwiftFutures/BlockChaining.swift:53-75 | Running a registered closure never touches its own cell or older ones. A stage logs its run first; a deferred stage then only queues its output, and a synchronous one fulfils its target cell. A terminal consumer only logs what it received, and every consumer's call shows in the log. |
| Chaining.Complete | SwiftFutures/BlockChaining.swift:53-55 | A stage completing cell `t` leaves older cells untouched. Completing at once fulfils `t`; completing from the main queue only appends the call to the queue. |
| Chaining.Drain | SwiftFuturesTests/BlockChainingTests.swift:23-25 | Spinning the main queue allocates no cell, keeps closures pointing forward, only appends to the log, and changes nothing once the queue is idle. |
| Chaining.FireNext | SwiftFuturesTests/BlockChainingTests.swift:93-103 | One turn of the main queue runs the oldest dispatched `closure` call: its cell is fulfilled with its value, and the rest of the queue stays ahead of anything newly queued. A consumer waiting on that cell is called with the value; with nobody waiting, the value is only stored. |
| Chaining.AsyncChain | SwiftFutures/BlockChaining.swift:44-48 | A fresh cell is allocated and `f` runs before it is returned. A synchronous `f` leaves its value buffered; a deferred one leaves it queued. |
| Chaining.Pipe | SwiftFutures/BlockChaining.swift:51-57 | A fresh cell is allocated. While `lhs` has no value, only the closure running `rhs` into the fresh cell is registered. With a buffered value `x`, `lhs` is emptied, every other existing cell is unchanged, and `rhs` runs at once: a synchronous `rhs` leaves `rhs(x)` in the fresh cell, a deferred one queues it. |
| Chaining.PipeEnd | SwiftFutures/BlockChaining.swift:59-63 | No cell is allocated. `lhs` changes exactly as `get` with `rhs` leaves it, so a buffered value is taken out, and every other cell is unchanged. A buffered value goes to `rhs` at once; otherwise `rhs` is registered. |
| Chaining.Sequence | SwiftFutures/BlockChaining.swift:66-72 | A fresh cell is allocated. While `lhs` has no value, only the closure running `rhs` into the fresh cell is registered. With a buffered value, `lhs` is emptied, every other existing cell is unchanged, and `rhs` runs at once, ignoring the value: a synchronous `rhs` leaves its output in the fresh cell, a deferred one queues it. |
| Chaining.SequenceEndAsWritten | SwiftFutures/BlockChaining.swift:74-76 | The only effect is the `get` of a no-op closure on `lhs`: a buffered value is taken out and dropped, or the no-op closure waits. Nothing is logged, so `rhs` never runs. |
| Chaining.SequenceEnd | SwiftFutures/BlockChaining.swift:74-76 | The corrected terminal `>>\|` runs `rhs` once `lhs` has delivered. `lhs` changes exactly as `get` leaves it, and every other cell is unchanged. |
| Chaining.StageBuffered | SwiftFutures/BlockChaining.swift:51-72 | A stage added after a cell holding `x` takes `x` out, leaves the other cells as they were, logs its run, and either fills its fresh cell with its output or queues it. |
| Chaining.BuildChainState | SwiftFutures/BlockChaining.swift:44-72 | After building, the chain's value is buffered in the last cell or queued for some stage. Every later stage's closure waits on its predecessor's cell. |
| Chaining.Cascade | SwiftFutures/BlockChaining.swift:21-30 | Handing a value to a cell runs the following stages as long as they complete synchronously. |
| Chaining.DrainQueued | SwiftFutures/BlockChaining.swift:21-72 | With one turn of the main queue per remaining stage, a queued chain runs to its end. |
| Chaining.ChainRuns | SwiftFutures/BlockChaining.swift:44-76 | Any chain runs each stage once, in order, and hands the terminal the stages' composition. Every cell ends empty and the queue ends idle. |
| Scenarios.AddIfEven | SwiftFuturesTests/EitherTests.swift:47-53 | Success exactly when `v` is even, carrying `v + w`. Otherwise the error is "not even". |
| Scenarios.EitherScenarios | SwiftFuturesTests/EitherTests.swift:29-80 | The test inputs give 4, "bad fmap", 10, "bad flatmap" and "not even". |
| Scenarios.AsyncAdd | SwiftFuturesTests/FutureTests.swift:92-98 | `asyncAdd(a)(b)` delivers `a + b`. Its dispatch to the main queue is not observable here, so it is `pure(a + b)`; the same helper is at SwiftFuturesTests/CompletionFutureTests.swift:27-33. |
| Scenarios.FutureScenarios | SwiftFuturesTests/FutureTests.swift:27-118 | `pure(2)` gives 2, the lifts give `.Some(2)` and `.Value(3)`, `fmap` gives 5, and `flatMap` gives 8. |
| Scenarios.ApplicativeScenario | SwiftFuturesTests/CompletionFutureTests.swift:86-96 | `subtract <%> 15 <*> 8` delivers 7. |
| Scenarios.MonadicScenario | SwiftFuturesTests/CompletionFutureTests.swift:98-108 | `pure(3) >>- +6 >>- +7 >>- asyncAdd(4)` delivers 20. |
| Scenarios.BindChainScenario | SwiftFutures/Future.swift:118-120 | A further chain built from the tests' `asyncAdd`: `pure(2) >>- asyncAdd(3) >>- asyncAdd(7)` delivers 12. |
| Scenarios.BindAllAdds | SwiftFutures/Future.swift:118-120 | A `>>-` chain of any number of adding steps delivers the start value plus every constant. |
| Scenarios.FoldScenario | SwiftFutures/Future.swift:118-120 | A further chain built from the tests' `asyncAdd`: `pure(0) >>- asyncAdd(7) >>- asyncAdd(9) >>- asyncAdd(14) >>- asyncAdd(3) >>- asyncAdd(6)` delivers 39. |
| Scenarios.AsyncInt | SwiftFuturesTests/BlockChainingTests.swift:87-91 | `asyncInt(r)` completes with `r`, from the main queue. |
| Scenarios.AsyncAddStage | SwiftFuturesTests/BlockChainingTests.swift:93-97 | The stage `asyncAdd(i)` completes with `i + j`, from the main queue. |
| Scenarios.AsyncSubtractStage | SwiftFuturesTests/BlockChainingTests.swift:99-103 | The stage `asyncSubtract(i)` completes with `j - i`, from the main queue, and so undoes `asyncAdd(i)`. |
| Scenarios.CapturedCompletionScenario | SwiftFuturesTests/BlockChainingTests.swift:36-66 | With synchronous or deferred completion, `get` on the captured cell receives 3 exactly once. |
| Scenarios.SumChainScenario | SwiftFuturesTests/BlockChainingTests.swift:68-75 | `2 >>> +7 >>> +9 >>> k` logs the three stages, then hands 18 to `k`. |
| Scenarios.DifferenceChainScenario | SwiftFuturesTests/BlockChainingTests.swift:77-84 | `22 >>> −7 >>> −9 >>> k` hands 6 to `k`, where `asyncSubtract(i)(j)` is `j - i`. |
| Scenarios.ClosingSequenceAsWritten | Examples/ViewController.swift:17-30 | As written, the closing `>>\| { done }` of the example controller's chain never runs. |
| Scenarios.ClosingSequenceCorrected | Examples/ViewController.swift:17-30 | With the corrected terminal `>>\|`, the closing block runs once, last. |

## Left out

- The arity adapters `future` and `liftM` live outside `Future.swift`, `Either.swift`, `CompletionFuture.swift` and `BlockChaining.swift` and are not modelled. The tests that use them become `Scenarios.ApplicativeScenario` and `Scenarios.MonadicScenario`, which assume only what the adapted futures deliver.
- Grand Central Dispatch and XCTest expectations are left out. A dispatch to the main queue is the `Later` timing of a chain stage, plus the explicit queue that `Chaining.FireNext` and `Chaining.Drain` run. For a `Future` the deferral only changes when the continuation is called, and the continuation-passing model does not observe that.
- Thread safety of the cell's two slots is left out. The source has none, and the model is sequential.
- Re-entrant use of a cell from inside its own consumer is left out. The source calls the consumer first and clears the slot afterwards, while the model clears first. In a chain a consumer only completes a newer cell, so the two orders cannot be told apart there.
- Swift's type-system machinery is left out: the `FutureType` protocol, curried parameters, and operator precedence. Left associativity is written as explicit nesting.
- The `Future` model covers re-registrable futures only. `fmap`, `flatMap`, `<%>`, `<*>`, `>>-` and `>>|` accept any `FutureType`, but a `CompletionFuture` operand keeps only its last consumer (SwiftFutures/CompletionFuture.swift:38). If `cf.fmap(g)` is registered twice before `cf` is fulfilled, only the second continuation is ever called. `Future.Yields` describes a future that delivers on every registration, so it cannot describe such an operand. The cell's own behaviour is modelled separately in module `Completion`.
- Scenarios.AddIfEven, Scenarios.AsyncAdd, Scenarios.AsyncAddStage, Scenarios.AsyncSubtractStage and Scenarios.BindAllAdds are modelled over unbounded `int`. Swift's `Int` is 64 bits, and its `+` and `-` trap on overflow, so that trap is not represented.
- Object identity and garbage collection of cells are left out. Cells are addressed by their index in the world.
- The chain operators `>>>` and `>>|` accept any `FutureType` on the left, so `pure(2) >>> {…}` or a `CompletionFuture` can start a chain. The model's operators take a cell of the world, and its chains start with `asyncChain`. A `Future` on the left delivers whenever its own `get` calls its continuation: at once for `pure`, from the main queue for the tests' `asyncAdd` futures. It also runs its `get` again for every registration instead of buffering one value. The model does not cover a `Future` on the left.
- Each chain stage completes exactly once, either at once (`Now`) or from the main queue (`Later`). A completion-style function that never calls its completion, or calls it twice, is not representable, and `Chaining.ChainRuns` says nothing about such chains.
- All stages of a chain share one value type `V`. In the source each stage may have its own type.
- The future laws that re-associate or eta-expand continuations hold for `Extensional` futures only: they require it of the futures involved (`f`, `lhs`, `rhs`, each `g(a)`), not of the continuations, which are unconstrained. Dafny cannot identify two functions that agree pointwise, so a future that inspects its continuation other than by calling it is not covered.
- `Future.Then`: the contract does not say that `rhs()` is built only after `lhs` delivers. That is shown separately with traces (`Future.ThenRegistersRhsAfterLhs`, `Future.ThenWaitsForLhs`).
- The example controller's UIKit calls are left out. Only the shape of its chain is used, with placeholder values.

## Findings

| source | as written | input that shows it | evidently intended | confidence | as-written member | corrected member |
|---|---|---|---|---|---|---|
| SwiftFutures/BlockChaining.swift:74-76 | The terminal `lhs >>\| rhs` registers `{ _ in }` on `lhs` and never calls `rhs`. | `asyncChain { present } >>\| { animate } >>> { dismiss } >>\| { print("done") }` (Examples/ViewController.swift:17-30): after every stage has run, "done" is never printed. | Once `lhs` delivers, `rhs()` runs exactly once, as in the terminal `>>>` and the `Future` form of `>>\|`. | not executed | Chaining.SequenceEndAsWritten | Chaining.SequenceEnd |

=== FILE: cell.dfy ===
/** The single-assignment completion cell.

    `CompletionFuture` and `AsyncBlockChain` are the same class twice: a slot
    `result` for a value that arrived before anyone asked for it and a slot
    `getResult` for a consumer that asked before the value arrived. `closure`
    fulfils the cell, `get` awaits it. Here the cell is an immutable record,
    consumers are opaque identities of type `C`, and each transition returns
    the new cell together with the call it makes, if any. */
module Completion {

  import opened Optional

  datatype Cell<V, C> = Cell(result: Option<V>, waiting: Option<C>)

  /** A synchronous call of consumer `consumer` with `value`. */
  datatype Delivery<V, C> = Delivery(consumer: C, value: V)

  /** A freshly allocated cell: both slots nil. */
  function Empty<V, C>(): Cell<V, C> {
    Cell(None, None)
  }

  /** At most one of the two slots is occupied. */
  predicate Exclusive<V, C>(c: Cell<V, C>) {
    c.result.None? || c.waiting.None?
  }

  /** `closure(v)`: a waiting consumer is called with `v` and forgotten, the
      result slot left as it was; with nobody waiting, `v` is buffered,
      replacing any value not yet taken. */
  function Fulfil<V, C>(c: Cell<V, C>, v: V): (r: (Cell<V, C>, Option<Delivery<V, C>>))
    ensures r.0.waiting.None?
    ensures Exclusive(c) ==> Exclusive(r.0)
    ensures r.1.Some? <==> c.waiting.Some?
    ensures r.1.Some? ==> r.1.value == Delivery(c.waiting.value, v) && r.0.result == c.result
    ensures r.1.None? ==> r.0.result == Some(v)
  {
    match c.waiting
    case Some(k) => (c.(waiting := None), Some(Delivery(k, v)))
    case None => (c.(result := Some(v)), None)
  }

  /** `get(k)`: a buffered value is handed to `k` at once and the result slot
      cleared, the waiting slot left as it was; with no value, `k` is stored,
      replacing any consumer still waiting. */
  function Await<V, C>(c: Cell<V, C>, k: C): (r: (Cell<V, C>, Option<Delivery<V, C>>))
    ensures r.0.result.None?
    ensures Exclusive(c) ==> Exclusive(r.0)
    ensures r.1.Some? <==> c.result.Some?
    ensures r.1.Some? ==> r.1.value == Delivery(k, c.result.value) && r.0.waiting == c.waiting
    ensures r.1.None? ==> r.0.waiting == Some(k)
  {
    match c.result
    case Some(v) => (c.(result := None), Some(Delivery(k, v)))
    case None => (c.(waiting := Some(k)), None)
  }

  // ---------------------------------------------------------------------------
  // The rendezvous the cell implements, stated on its own
  // ---------------------------------------------------------------------------

  /** What an exclusive cell holds: nothing, a value, or a consumer. */
  datatype Rendezvous<V, C> = Idle | HasValue(v: V) | HasConsumer(k: C)

  function Abstract<V, C>(c: Cell<V, C>): Rendezvous<V, C>
    requires Exclusive(c)
  {
    if c.result.Some? then HasValue(c.result.value)
    else if c.waiting.Some? then HasConsumer(c.waiting.value)
    else Idle
  }

  /** A producer meets a waiting consumer, or becomes the single pending value. */
  function RendezvousFulfil<V, C>(p: Rendezvous<V, C>, v: V): (Rendezvous<V, C>, Option<Delivery<V, C>>) {
    match p
    case HasConsumer(k) => (Idle, Some(Delivery(k, v)))
    case _ => (HasValue(v), None)
  }

  /** A consumer meets a pending value, or becomes the single pending consumer. */
  function RendezvousAwait<V, C>(p: Rendezvous<V, C>, k: C): (Rendezvous<V, C>, Option<Delivery<V, C>>) {
    match p
    case HasValue(v) => (Idle, Some(Delivery(k, v)))
    case _ => (HasConsumer(k), None)
  }

  /** On an exclusive cell, `closure` is exactly the rendezvous's fulfil. */
  lemma FulfilRefinesRendezvous<V, C>(c: Cell<V, C>, v: V)
    requires Exclusive(c)
    ensures Abstract(Fulfil(c, v).0) == RendezvousFulfil(Abstract(c), v).0
    ensures Fulfil(c, v).1 == RendezvousFulfil(Abstract(c), v).1
  {}

  /** On an exclusive cell, `get` is exactly the rendezvous's await. */
  lemma AwaitRefinesRendezvous<V, C>(c: Cell<V, C>, k: C)
    requires Exclusive(c)
    ensures Abstract(Await(c, k).0) == RendezvousAwait(Abstract(c), k).0
    ensures Await(c, k).1 == RendezvousAwait(Abstract(c), k).1
  {}

  // ---------------------------------------------------------------------------
  // Runs of calls
  // ---------------------------------------------------------------------------

  /** One call on the cell: its `closure` with a value, or its `get` with a consumer. */
  datatype Op<V, C> = Put(v: V) | Get(k: C)

  function Perform<V, C>(c: Cell<V, C>, op: Op<V, C>): (Cell<V, C>, Option<Delivery<V, C>>) {
    match op
    case Put(v) => Fulfil(c, v)
    case Get(k) => Await(c, k)
  }

  function Calls<V, C>(d: Option<Delivery<V, C>>): seq<Delivery<V, C>> {
    match d
    case Some(x) => [x]
    case None => []
  }

  /** The calls in order, with the cell they leave behind and the consumer
      calls they make. */
  function Run<V, C>(c: Cell<V, C>, ops: seq<Op<V, C>>): (Cell<V, C>, seq<Delivery<V, C>>)
    decreases |ops|
  {
    if |ops| == 0 then (c, [])
    else
      var first := Perform(c, ops[0]);
      var rest := Run(first.0, ops[1..]);
      (rest.0, if first.1.Some? then [first.1.value] + rest.1 else rest.1)
  }

  /** Mutual exclusion of the two slots survives every run. */
  lemma {:induction false} RunKeepsExclusive<V, C>(c: Cell<V, C>, ops: seq<Op<V, C>>)
    requires Exclusive(c)
    ensures Exclusive(Run(c, ops).0)
    decreases |ops|
  {
    if |ops| > 0 {
      RunKeepsExclusive(Perform(c, ops[0]).0, ops[1..]);
    }
  }

  /** Starting from a fresh cell, at most one slot is ever occupied. */
  lemma FreshCellStaysExclusive<V, C>(ops: seq<Op<V, C>>)
    ensures Exclusive(Run(Empty<V, C>(), ops).0)
  {
    RunKeepsExclusive(Empty<V, C>(), ops);
  }

  /** The cell invents nothing: every call it makes passes a value that was
      buffered at the start or handed to `closure`, to a consumer that was
      waiting at the start or handed to `get`. */
  lemma {:induction false} RunDeliversOnlyWhatWasGiven<V, C>(c: Cell<V, C>, ops: seq<Op<V, C>>)
    ensures forall d :: d in Run(c, ops).1 ==>
      (Put(d.value) in ops || c.result == Some(d.value)) &&
      (Get(d.consumer) in ops || c.waiting == Some(d.consumer))
    decreases |ops|
  {
    if |ops| > 0 {
      var (c1, d1) := Perform(c, ops[0]);
      RunDeliversOnlyWhatWasGiven(c1, ops[1..]);
      forall d | d in Run(c, ops).1
        ensures Put(d.value) in ops || c.result == Some(d.value)
        ensures Get(d.consumer) in ops || c.waiting == Some(d.consumer)
      {
        if d !in Calls(d1) {
          assert d in Run(c1, ops[1..]).1;
          assert forall op :: op in ops[1..] ==> op in ops;
        }
      }
    }
  }

  /** Each call makes at most one consumer call. */
  lemma {:induction false} RunCallsAtMostOncePerOp<V, C>(c: Cell<V, C>, ops: seq<Op<V, C>>)
    ensures |Run(c, ops).1| <= |ops|
    decreases |ops|
  {
    if |ops| > 0 {
      RunCallsAtMostOncePerOp(Perform(c, ops[0]).0, ops[1..]);
    }
  }

  /** The number of `closure` calls in a run. */
  function Puts<V, C>(ops: seq<Op<V, C>>): nat
    decreases |ops|
  {
    if |ops| == 0 then 0 else (if ops[0].Put? then 1 else 0) + Puts(ops[1..])
  }

  /** The number of `get` calls in a run. */
  function Gets<V, C>(ops: seq<Op<V, C>>): nat
    decreases |ops|
  {
    if |ops| == 0 then 0 else (if ops[0].Get? then 1 else 0) + Gets(ops[1..])
  }

  function Occupied<T>(o: Option<T>): nat {
    if o.Some? then 1 else 0
  }

  /** Every consumer call spends a value: one given by a `closure` of the run,
      or the one already buffered. A value still buffered at the end was not
      spent. */
  lemma {:induction false} RunCallsAtMostOncePerPut<V, C>(c: Cell<V, C>, ops: seq<Op<V, C>>)
    ensures |Run(c, ops).1| + Occupied(Run(c, ops).0.result) <= Puts(ops) + Occupied(c.result)
    ensures |Run(c, ops).1| <= Puts(ops) + Occupied(c.result)
    decreases |ops|
  {
    if |ops| > 0 {
      RunCallsAtMostOncePerPut(Perform(c, ops[0]).0, ops[1..]);
    }
  }

  /** Every consumer call spends a consumer: one given by a `get` of the run,
      or the one already waiting. A consumer still waiting at the end was not
      called. */
  lemma {:induction false} RunCallsAtMostOncePerGet<V, C>(c: Cell<V, C>, ops: seq<Op<V, C>>)
    ensures |Run(c, ops).1| + Occupied(Run(c, ops).0.waiting) <= Gets(ops) + Occupied(c.waiting)
    ensures |Run(c, ops).1| <= Gets(ops) + Occupied(c.waiting)
    decreases |ops|
  {
    if |ops| > 0 {
      RunCallsAtMostOncePerGet(Perform(c, ops[0]).0, ops[1..]);
    }
  }

  /** A run of a single call. */
  lemma RunOne<V, C>(c: Cell<V, C>, op: Op<V, C>)
    ensures Run(c, [op]) == (Perform(c, op).0, Calls(Perform(c, op).1))
  {
    assert [op][1..] == [];
    if Perform(c, op).1.Some? {
      assert [Perform(c, op).1.value] + [] == Calls(Perform(c, op).1);
    }
  }

  /** Running a call followed by more calls. */
  lemma RunCons<V, C>(c: Cell<V, C>, op: Op<V, C>, rest: seq<Op<V, C>>)
    ensures Run(c, [op] + rest)
         == (Run(Perform(c, op).0, rest).0, Calls(Perform(c, op).1) + Run(Perform(c, op).0, rest).1)
  {
    assert ([op] + rest)[1..] == rest;
    assert [] + Run(Perform(c, op).0, rest).1 == Run(Perform(c, op).0, rest).1;
  }

  /** Fulfil, then await: the consumer is called once, with the value, and the
      cell is left empty. */
  lemma FulfilThenAwait<V, C>(v: V, k: C)
    ensures Run(Empty<V, C>(), [Put(v), Get(k)]) == (Empty(), [Delivery(k, v)])
  {
    RunOne(Cell<V, C>.Cell(Some(v), None), Get(k));
    RunCons(Empty<V, C>(), Put(v), [Get(k)]);
    assert [Put(v)] + [Get(k)] == [Op<V, C>.Put(v), Get(k)];
  }

  /** Await, then fulfil: the same single call, and the cell is left empty. */
  lemma AwaitThenFulfil<V, C>(v: V, k: C)
    ensures Run(Empty<V, C>(), [Get(k), Put(v)]) == (Empty(), [Delivery(k, v)])
  {
    RunOne(Cell<V, C>.Cell(None, Some(k)), Put(v));
    RunCons(Empty<V, C>(), Get(k), [Put(v)]);
    assert [Get(k)] + [Put(v)] == [Op<V, C>.Get(k), Put(v)];
  }

  /** Registration order does not matter to a single producer and a single consumer. */
  lemma OrderIndependent<V, C>(v: V, k: C)
    ensures Run(Empty<V, C>(), [Put(v), Get(k)]) == Run(Empty<V, C>(), [Get(k), Put(v)])
  {
    FulfilThenAwait(v, k);
    AwaitThenFulfil(v, k);
  }

  function PutAll<V, C>(vs: seq<V>): (ops: seq<Op<V, C>>)
    ensures |ops| == |vs|
    ensures forall i :: 0 <= i < |vs| ==> ops[i] == Put(vs[i])
  {
    if |vs| == 0 then [] else [Put(vs[0])] + PutAll(vs[1..])
  }

  function GetAll<V, C>(ks: seq<C>): (ops: seq<Op<V, C>>)
    ensures |ops| == |ks|
    ensures forall i :: 0 <= i < |ks| ==> ops[i] == Get(ks[i])
  {
    if |ks| == 0 then [] else [Get(ks[0])] + GetAll(ks[1..])
  }

  /** Fulfilling repeatedly with nobody waiting buffers only the last value;
      the earlier ones are lost and nobody is called. */
  lemma {:induction false} LastPutOverwrites<V, C>(r: Option<V>, vs: seq<V>)
    requires |vs| > 0
    ensures Run(Cell<V, C>.Cell(r, None), PutAll(vs)) == (Cell(Some(vs[|vs| - 1]), None), [])
    decreases |vs|
  {
    var ops := PutAll<V, C>(vs);
    assert ops == [Put(vs[0])] + PutAll(vs[1..]);
    RunCons(Cell<V, C>.Cell(r, None), Put(vs[0]), PutAll(vs[1..]));
    if |vs| > 1 {
      LastPutOverwrites<V, C>(Some(vs[0]), vs[1..]);
    }
  }

  /** Awaiting repeatedly with no value buffered keeps only the last consumer. */
  lemma {:induction false} LastGetOverwrites<V, C>(w: Option<C>, ks: seq<C>)
    requires |ks| > 0
    ensures Run(Cell<V, C>.Cell(None, w), GetAll(ks)) == (Cell(None, Some(ks[|ks| - 1])), [])
    decreases |ks|
  {
    var ops := GetAll<V, C>(ks);
    assert ops == [Get(ks[0])] + GetAll(ks[1..]);
    RunCons(Cell<V, C>.Cell(None, w), Get(ks[0]), GetAll(ks[1..]));
    if |ks| > 1 {
      LastGetOverwrites<V, C>(Some(ks[0]), ks[1..]);
    }
  }

  /** Run is compositional: running `a + b` is running `a`, then `b` from where `a` left off. */
  lemma {:induction false} RunAppend<V, C>(c: Cell<V, C>, a: seq<Op<V, C>>, b: seq<Op<V, C>>)
    ensures Run(c, a + b) == (Run(Run(c, a).0, b).0, Run(c, a).1 + Run(Run(c, a).0, b).1)
    decreases |a|
  {
    if |a| == 0 {
      assert a + b == b;
      assert [] + Run(c, b).1 == Run(c, b).1;
    } else {
      var c1 := Perform(c, a[0]).0;
      var calls := Calls(Perform(c, a[0]).1);
      assert a + b == [a[0]] + (a[1..] + b);
      assert a == [a[0]] + a[1..];
      RunCons(c, a[0], a[1..] + b);
      RunCons(c, a[0], a[1..]);
      RunAppend(c1, a[1..], b);
      var mid := Run(c1, a[1..]);
      assert calls + (mid.1 + Run(mid.0, b).1) == (calls + mid.1) + Run(mid.0, b).1;
    }
  }

  /** Several fulfils before any await: the consumer sees only the last value. */
  lemma AwaitSeesLastPut<V, C>(vs: seq<V>, k: C)
    requires |vs| > 0
    ensures Run(Empty<V, C>(), PutAll(vs) + [Get(k)]) == (Empty(), [Delivery(k, vs[|vs| - 1])])
  {
    LastPutOverwrites<V, C>(None, vs);
    RunAppend(Empty<V, C>(), PutAll(vs), [Get(k)]);
    RunOne(Cell<V, C>.Cell(Some(vs[|vs| - 1]), None), Get(k));
    assert [] + [Delivery(k, vs[|vs| - 1])] == [Delivery(k, vs[|vs| - 1])];
  }

  /** Several awaits before the fulfil: only the last consumer is called. */
  lemma PutReachesLastGet<V, C>(ks: seq<C>, v: V)
    requires |ks| > 0
    ensures Run(Empty<V, C>(), GetAll(ks) + [Put(v)]) == (Empty(), [Delivery(ks[|ks| - 1], v)])
  {
    LastGetOverwrites<V, C>(None, ks);
    RunAppend(Empty<V, C>(), GetAll(ks), [Put(v)]);
    RunOne(Cell<V, C>.Cell(None, Some(ks[|ks| - 1])), Put(v));
    assert [] + [Delivery(ks[|ks| - 1], v)] == [Delivery(ks[|ks| - 1], v)];
  }
}

=== FILE: chaining.dfy ===
/** The block-chaining notation built on the completion cell: `asyncChain`,
    `>>>` and `>>|`, each in a stage form (which allocates a fresh cell for the
    next stage) and a terminal form.

    The model is a world of cells addressed by index, the main dispatch queue
    (first in, first out) and a log of what the chain's stages did. The
    closures the operators register on a cell are represented by the
    `Consumer` datatype. A completion-style function of the chain either calls
    its completion before it returns (`Now`) or dispatches that call to the
    main queue (`Later`), as the tests' `dispatch_async` does; `FireNext` is
    the main queue running its next task. */
module Chaining {

  import opened Optional
  import C = Completion

  type CellId = nat

  /** When a completion-style function calls the completion it was handed. */
  datatype Timing = Now | Later

  /** A `>>>` stage `(V, V -> ()) -> ()`: it completes with `f` of its input. */
  datatype Step<!V> = Step(tag: nat, f: V -> V, timing: Timing)

  /** An `asyncChain` or `>>|` stage `(V -> ()) -> ()`: it completes with `out`. */
  datatype Source<V> = Source(tag: nat, out: V, timing: Timing)

  /** The closures the operators hand to a cell's `get`. */
  datatype Consumer<!V> =
    | RunStep(step: Step<V>, target: CellId)        // stage `>>>`: step(x, target.closure)
    | RunSource(source: Source<V>, target: CellId)  // stage `>>|`: source(target.closure)
    | Receive(tag: nat)                              // terminal `>>>`: a plain consumer of x
    | Ignore                                         // terminal `>>|` as written: `{ _ in }`
    | Invoke(tag: nat)                               // terminal `>>|` corrected: rhs()

  /** A deferred call of a cell's closure, waiting on the main queue. */
  datatype Task<V> = Fire(cell: CellId, value: V)

  /** A stage function running, or a terminal consumer receiving a value. */
  datatype Event<V> = Ran(tag: nat) | Received(tag: nat, value: V)

  datatype World<!V> = World(cells: seq<C.Cell<V, Consumer<V>>>, queue: seq<Task<V>>, log: seq<Event<V>>)

  function Start<V>(): World<V> {
    World([], [], [])
  }

  /** Closures only ever point forward: a consumer waiting on cell `from`
      completes a cell allocated after it. */
  predicate Targets<V>(k: Consumer<V>, from: nat, n: nat) {
    match k
    case RunStep(_, t) => from < t < n
    case RunSource(_, t) => from < t < n
    case _ => true
  }

  predicate Valid<V>(w: World<V>) {
    && (forall i :: 0 <= i < |w.cells| && w.cells[i].waiting.Some? ==> Targets(w.cells[i].waiting.value, i, |w.cells|))
    && (forall j :: 0 <= j < |w.queue| ==> w.queue[j].cell < |w.cells|)
  }

  /** The log shows that consumer `k` was called with `v`: a stage logs its
      run before anything it sets off, a terminal consumer logs exactly its
      own effect, and the no-op closure logs nothing. */
  ghost predicate Called<V>(k: Consumer<V>, v: V, before: seq<Event<V>>, after: seq<Event<V>>) {
    match k
    case RunStep(s, _) => |after| > |before| && after[..|before| + 1] == before + [Ran(s.tag)]
    case RunSource(s, _) => |after| > |before| && after[..|before| + 1] == before + [Ran(s.tag)]
    case Receive(tag) => after == before + [Received(tag, v)]
    case Ignore => after == before
    case Invoke(tag) => after == before + [Ran(tag)]
  }

  /** A consumer that ends a chain: calling it completes no cell. */
  predicate Terminal<V>(k: Consumer<V>) {
    k.Receive? || k.Ignore? || k.Invoke?
  }

  // ---------------------------------------------------------------------------
  // The cell's two entry points, and what a delivered value sets off
  // ---------------------------------------------------------------------------

  /** `cell.closure(v)`: the completion transition of the cell, then the call
      of the consumer it releases, if any. Runs only forward, allocates nothing,
      and never erases history. */
  function Closure<V>(w: World<V>, id: CellId, v: V): (r: World<V>)
    requires Valid(w) && id < |w.cells|
    ensures Valid(r) && |r.cells| == |w.cells|
    ensures w.log <= r.log && w.queue <= r.queue
    ensures r.cells[id] == C.Fulfil(w.cells[id], v).0
    ensures forall i :: 0 <= i < id ==> r.cells[i] == w.cells[i]
    ensures w.cells[id].waiting.None? ==> r == w.(cells := w.cells[id := C.Fulfil(w.cells[id], v).0])
    ensures w.cells[id].waiting.Some? ==> Called(w.cells[id].waiting.value, v, w.log, r.log)
    ensures w.cells[id].waiting.Some? && Terminal(w.cells[id].waiting.value) ==>
      r.cells == w.cells[id := C.Fulfil(w.cells[id], v).0] && r.queue == w.queue
    decreases |w.cells| - id, 2
  {
    var (c, d) := C.Fulfil(w.cells[id], v);
    var w1 := w.(cells := w.cells[id := c]);
    if d.Some? then Deliver(w1, id, d.value.consumer, v) else w1
  }

  /** `cell.get(k)`: the await transition of the cell, then the call of `k`
      if a value was buffered. */
  function Get<V>(w: World<V>, id: CellId, k: Consumer<V>): (r: World<V>)
    requires Valid(w) && id < |w.cells| && Targets(k, id, |w.cells|)
    ensures Valid(r) && |r.cells| == |w.cells|
    ensures w.log <= r.log && w.queue <= r.queue
    ensures r.cells[id] == C.Await(w.cells[id], k).0
    ensures forall i :: 0 <= i < id ==> r.cells[i] == w.cells[i]
    ensures w.cells[id].result.None? ==> r == w.(cells := w.cells[id := C.Cell(None, Some(k))])
    ensures w.cells[id].result.Some? ==> Called(k, w.cells[id].result.value, w.log, r.log)
    ensures w.cells[id].result.Some? && Terminal(k) ==>
      r.cells == w.cells[id := C.Await(w.cells[id], k).0] && r.queue == w.queue
  {
    var (c, d) := C.Await(w.cells[id], k);
    var w1 := w.(cells := w.cells[id := c]);
    if d.Some? then Deliver(w1, id, k, d.value.value) else w1
  }

  /** Calling consumer `k`, released by cell `from`, with `v`. */
  function Deliver<V>(w: World<V>, from: CellId, k: Consumer<V>, v: V): (r: World<V>)
    requires Valid(w) && from < |w.cells| && Targets(k, from, |w.cells|)
    ensures Valid(r) && |r.cells| == |w.cells|
    ensures w.log <= r.log && w.queue <= r.queue
    ensures forall i :: 0 <= i <= from ==> r.cells[i] == w.cells[i]
    ensures k.RunStep? ==> |r.log| > |w.log| && r.log[|w.log|] == Ran(k.step.tag)
    ensures k.RunSource? ==> |r.log| > |w.log| && r.log[|w.log|] == Ran(k.source.tag)
    ensures k.RunStep? && k.step.timing == Later ==>
      r == w.(log := w.log + [Ran(k.step.tag)], queue := w.queue + [Fire(k.target, k.step.f(v))])
    ensures k.RunSource? && k.source.timing == Later ==>
      r == w.(log := w.log + [Ran(k.source.tag)], queue := w.queue + [Fire(k.target, k.source.out)])
    ensures k.RunStep? && k.step.timing == Now ==> r.cells[k.target] == C.Fulfil(w.cells[k.target], k.step.f(v)).0
    ensures k.RunSource? && k.source.timing == Now ==> r.cells[k.target] == C.Fulfil(w.cells[k.target], k.source.out).0
    ensures k.Receive? ==> r == w.(log := w.log + [Received(k.tag, v)])
    ensures k.Ignore? ==> r == w
    ensures k.Invoke? ==> r == w.(log := w.log + [Ran(k.tag)])
    ensures Called(k, v, w.log, r.log)
    decreases |w.cells| - from, 1
  {
    match k
    case RunStep(s, t) => Complete(w.(log := w.log + [Ran(s.tag)]), t, s.f(v), s.timing)
    case RunSource(s, t) => Complete(w.(log := w.log + [Ran(s.tag)]), t, s.out, s.timing)
    case Receive(tag) => w.(log := w.log + [Received(tag, v)])
    case Ignore => w
    case Invoke(tag) => w.(log := w.log + [Ran(tag)])
  }

  /** A stage calling the completion it was handed (cell `t`'s closure) with
      `x`: at once, or by dispatching the call to the main queue. */
  function Complete<V>(w: World<V>, t: CellId, x: V, timing: Timing): (r: World<V>)
    requires Valid(w) && t < |w.cells|
    ensures Valid(r) && |r.cells| == |w.cells|
    ensures w.log <= r.log && w.queue <= r.queue
    ensures forall i :: 0 <= i < t ==> r.cells[i] == w.cells[i]
    ensures timing == Now ==> r.cells[t] == C.Fulfil(w.cells[t], x).0
    ensures timing == Later ==> r == w.(queue := w.queue + [Fire(t, x)])
    decreases |w.cells| - t, 3
  {
    match timing
    case Now => Closure(w, t, x)
    case Later => w.(queue := w.queue + [Fire(t, x)])
  }

  /** The main queue runs its oldest task. */
  function FireNext<V>(w: World<V>): (r: World<V>)
    requires Valid(w) && |w.queue| > 0
    ensures Valid(r) && |r.cells| == |w.cells|
    ensures w.log <= r.log && w.queue[1..] <= r.queue
    ensures r.cells[w.queue[0].cell] == C.Fulfil(w.cells[w.queue[0].cell], w.queue[0].value).0
    ensures w.cells[w.queue[0].cell].waiting.Some? ==>
      Called(w.cells[w.queue[0].cell].waiting.value, w.queue[0].value, w.log, r.log)
    ensures w.cells[w.queue[0].cell].waiting.None? ==>
      r == w.(cells := w.cells[w.queue[0].cell := C.Cell(Some(w.queue[0].value), w.cells[w.queue[0].cell].waiting)], queue := w.queue[1..])
  {
    Closure(w.(queue := w.queue[1..]), w.queue[0].cell, w.queue[0].value)
  }

  /** The main queue runs up to `fuel` tasks, stopping early once it is empty. */
  function Drain<V>(w: World<V>, fuel: nat): (r: World<V>)
    requires Valid(w)
    ensures Valid(r) && |r.cells| == |w.cells|
    ensures w.log <= r.log
    ensures |w.queue| == 0 ==> r == w
    decreases fuel
  {
    if fuel == 0 || |w.queue| == 0 then w else Drain(FireNext(w), fuel - 1)
  }

  // ---------------------------------------------------------------------------
  // The chaining operators
  // ---------------------------------------------------------------------------

  /** `asyncChain(f)`: allocate a fresh cell and call `f` with its closure
      before returning the cell. */
  function AsyncChain<V>(w: World<V>, src: Source<V>): (r: (World<V>, CellId))
    requires Valid(w)
    ensures Valid(r.0) && r.1 == |w.cells| && |r.0.cells| == |w.cells| + 1
    ensures r.0.cells[..|w.cells|] == w.cells
    ensures r.0.log == w.log + [Ran(src.tag)]
    ensures src.timing == Now ==> r.0.cells[r.1] == C.Cell(Some(src.out), None) && r.0.queue == w.queue
    ensures src.timing == Later ==> r.0.cells[r.1] == C.Empty() && r.0.queue == w.queue + [Fire(r.1, src.out)]
  {
    var id := |w.cells|;
    var w1 := World(w.cells + [C.Empty()], w.queue, w.log + [Ran(src.tag)]);
    var r := Complete(w1, id, src.out, src.timing);
    assert src.timing == Now ==> r == Closure(w1, id, src.out) == w1.(cells := w1.cells[id := C.Cell(Some(src.out), None)]);
    (r, id)
  }

  /** Stage `lhs >>> step`: allocate a fresh cell and register on `lhs` a
      closure that runs `step` with the delivered value and the new cell's
      closure. */
  function Pipe<V>(w: World<V>, lhs: CellId, step: Step<V>): (r: (World<V>, CellId))
    requires Valid(w) && lhs < |w.cells|
    ensures Valid(r.0) && r.1 == |w.cells| && |r.0.cells| == |w.cells| + 1
    ensures w.log <= r.0.log
    ensures w.cells[lhs].result.None? ==>
      && r.0.cells == w.cells[lhs := C.Cell(None, Some(RunStep(step, r.1)))] + [C.Empty()]
      && r.0.log == w.log && r.0.queue == w.queue
    ensures w.cells[lhs].result.Some? ==>
      var x := w.cells[lhs].result.value;
      && r.0.cells[lhs] == C.Cell(None, w.cells[lhs].waiting)
      && r.0.cells[..|w.cells|] == w.cells[lhs := C.Cell(None, w.cells[lhs].waiting)]
      && r.0.log == w.log + [Ran(step.tag)]
      && (step.timing == Now ==> r.0.cells[r.1] == C.Cell(Some(step.f(x)), None) && r.0.queue == w.queue)
      && (step.timing == Later ==> r.0.cells[r.1] == C.Empty() && r.0.queue == w.queue + [Fire(r.1, step.f(x))])
  {
    var id := |w.cells|;
    var w1 := w.(cells := w.cells + [C.Empty()]);
    if w.cells[lhs].result.Some? then
      StageBuffered(w, lhs, PipeLink(step));
      (Get(w1, lhs, RunStep(step, id)), id)
    else
      (Get(w1, lhs, RunStep(step, id)), id)
  }


  /** Terminal `lhs >>> k`: register `k` on `lhs`; no cell is allocated. */
  function PipeEnd<V>(w: World<V>, lhs: CellId, tag: nat): (r: World<V>)
    requires Valid(w) && lhs < |w.cells|
    ensures Valid(r) && |r.cells| == |w.cells| && r.queue == w.queue
    ensures w.cells[lhs].result.Some? ==> r.log == w.log + [Received(tag, w.cells[lhs].result.value)]
    ensures w.cells[lhs].result.None? ==> r.log == w.log && r.cells[lhs].waiting == Some(Receive(tag))
    ensures r.cells == w.cells[lhs := C.Await(w.cells[lhs], Receive(tag)).0]
  {
    Get(w, lhs, Receive(tag))
  }

  /** Stage `lhs >>| src`: allocate a fresh cell and register on `lhs` a
      closure that ignores the delivered value and runs `src` with the new
      cell's closure. */
  function Sequence<V>(w: World<V>, lhs: CellId, src: Source<V>): (r: (World<V>, CellId))
    requires Valid(w) && lhs < |w.cells|
    ensures Valid(r.0) && r.1 == |w.cells| && |r.0.cells| == |w.cells| + 1
    ensures w.log <= r.0.log
    ensures w.cells[lhs].result.None? ==>
      && r.0.cells == w.cells[lhs := C.Cell(None, Some(RunSource(src, r.1)))] + [C.Empty()]
      && r.0.log == w.log && r.0.queue == w.queue
    ensures w.cells[lhs].result.Some? ==>
      && r.0.cells[lhs] == C.Cell(None, w.cells[lhs].waiting)
      && r.0.cells[..|w.cells|] == w.cells[lhs := C.Cell(None, w.cells[lhs].waiting)]
      && r.0.log == w.log + [Ran(src.tag)]
      && (src.timing == Now ==> r.0.cells[r.1] == C.Cell(Some(src.out), None) && r.0.queue == w.queue)
      && (src.timing == Later ==> r.0.cells[r.1] == C.Empty() && r.0.queue == w.queue + [Fire(r.1, src.out)])
  {
    var id := |w.cells|;
    var w1 := w.(cells := w.cells + [C.Empty()]);
    if w.cells[lhs].result.Some? then
      StageBuffered(w, lhs, SequenceLink(src));
      (Get(w1, lhs, RunSource(src, id)), id)
    else
      (Get(w1, lhs, RunSource(src, id)), id)
  }


  /** A stage added after a cell that already holds `x`: the value is taken
      out of the cell and the stage runs at once. A synchronous stage leaves
      its output in the fresh cell; a deferred one queues it. */
  lemma StageBuffered<V>(w: World<V>, lhs: CellId, l: Link<V>)
    requires Valid(w) && lhs < |w.cells| && w.cells[lhs].result.Some?
    ensures
      var id := |w.cells|;
      var r := Get(w.(cells := w.cells + [C.Empty()]), lhs, Waiter(l, id));
      var y := Out(l, w.cells[lhs].result.value);
      && r.cells[..id] == w.cells[lhs := C.Cell(None, w.cells[lhs].waiting)]
      && r.log == w.log + [Ran(Tag(l))]
      && (TimingOf(l) == Now ==> r.cells[id] == C.Cell(Some(y), None) && r.queue == w.queue)
      && (TimingOf(l) == Later ==> r.cells[id] == C.Empty() && r.queue == w.queue + [Fire(id, y)])
  {
    var id := |w.cells|;
    var x := w.cells[lhs].result.value;
    var y := Out(l, x);
    var w1 := w.(cells := w.cells + [C.Empty()]);
    var w2 := w1.(cells := w1.cells[lhs := C.Cell(None, w.cells[lhs].waiting)]);
    var r := Get(w1, lhs, Waiter(l, id));
    GetTakesBuffered(w1, lhs, Waiter(l, id));
    assert w2.cells[..id] == w.cells[lhs := C.Cell(None, w.cells[lhs].waiting)];
    if TimingOf(l) == Now {
      StageRunsNow(w2, lhs, l, x);
      assert r.cells == w2.cells[id := C.Cell(Some(y), None)];
      assert r.cells[..id] == w2.cells[..id];
    } else {
      StageRunsLater(w2, lhs, l, x);
    }
  }

  /** `get` on a cell holding a value takes the value out and runs `k` with it. */
  lemma GetTakesBuffered<V>(w: World<V>, id: CellId, k: Consumer<V>)
    requires Valid(w) && id < |w.cells| && Targets(k, id, |w.cells|) && w.cells[id].result.Some?
    ensures Get(w, id, k)
         == Deliver(w.(cells := w.cells[id := C.Cell(None, w.cells[id].waiting)]), id, k, w.cells[id].result.value)
  {}

  /** A synchronous stage handed `x` fills its own, still empty, cell. */
  lemma StageRunsNow<V>(w: World<V>, from: CellId, l: Link<V>, x: V)
    requires Valid(w) && from < |w.cells| - 1 && w.cells[|w.cells| - 1] == C.Empty()
    requires TimingOf(l) == Now
    ensures
      var t := |w.cells| - 1;
      Deliver(w, from, Waiter(l, t), x)
        == w.(log := w.log + [Ran(Tag(l))], cells := w.cells[t := C.Cell(Some(Out(l, x)), None)])
  {
    var t := |w.cells| - 1;
    var w3 := w.(log := w.log + [Ran(Tag(l))]);
    assert Deliver(w, from, Waiter(l, t), x) == Complete(w3, t, Out(l, x), Now);
  }

  /** A deferred stage handed `x` queues its output for its own cell. */
  lemma StageRunsLater<V>(w: World<V>, from: CellId, l: Link<V>, x: V)
    requires Valid(w) && from < |w.cells| - 1
    requires TimingOf(l) == Later
    ensures
      var t := |w.cells| - 1;
      Deliver(w, from, Waiter(l, t), x)
        == w.(log := w.log + [Ran(Tag(l))], queue := w.queue + [Fire(t, Out(l, x))])
  {
    var t := |w.cells| - 1;
    var w3 := w.(log := w.log + [Ran(Tag(l))]);
    assert Deliver(w, from, Waiter(l, t), x) == Complete(w3, t, Out(l, x), Later);
  }

  /** Terminal `lhs >>| rhs` as the source writes it: a no-op closure is
      registered on `lhs` and `rhs` is dropped, so it never runs. */
  function SequenceEndAsWritten<V>(w: World<V>, lhs: CellId, tag: nat): (r: World<V>)
    requires Valid(w) && lhs < |w.cells|
    ensures Valid(r) && |r.cells| == |w.cells| && r.queue == w.queue
    ensures r.log == w.log
    ensures r == w.(cells := w.cells[lhs := C.Await(w.cells[lhs], Ignore).0])
  {
    Get(w, lhs, Ignore)
  }

  /** Terminal `lhs >>| rhs` as evidently intended: `rhs()` runs once `lhs`
      has delivered. */
  function SequenceEnd<V>(w: World<V>, lhs: CellId, tag: nat): (r: World<V>)
    requires Valid(w) && lhs < |w.cells|
    ensures Valid(r) && |r.cells| == |w.cells| && r.queue == w.queue
    ensures w.cells[lhs].result.Some? ==> r.log == w.log + [Ran(tag)]
    ensures w.cells[lhs].result.None? ==> r.log == w.log && r.cells[lhs].waiting == Some(Invoke(tag))
    ensures r.cells == w.cells[lhs := C.Await(w.cells[lhs], Invoke(tag)).0]
  {
    Get(w, lhs, Invoke(tag))
  }

  // ---------------------------------------------------------------------------
  // Whole chains: asyncChain(src) followed by stages, closed by a terminal
  // ---------------------------------------------------------------------------

  /** A stage after `asyncChain`: `>>> step` or `>>| source`. */
  datatype Link<!V> = PipeLink(step: Step<V>) | SequenceLink(source: Source<V>)

  /** The terminal form that closes a chain. */
  datatype Ending = EndPipe(tag: nat) | EndSequenceAsWritten(tag: nat) | EndSequence(tag: nat)

  function Tag<V>(l: Link<V>): nat {
    match l
    case PipeLink(s) => s.tag
    case SequenceLink(s) => s.tag
  }

  function TimingOf<V>(l: Link<V>): Timing {
    match l
    case PipeLink(s) => s.timing
    case SequenceLink(s) => s.timing
  }

  /** What a stage completes with, given the previous stage's value. */
  function Out<V>(l: Link<V>, x: V): V {
    match l
    case PipeLink(s) => s.f(x)
    case SequenceLink(s) => s.out
  }

  /** The closure a stage registers on the previous stage's cell. */
  function Waiter<V>(l: Link<V>, t: CellId): Consumer<V> {
    match l
    case PipeLink(s) => RunStep(s, t)
    case SequenceLink(s) => RunSource(s, t)
  }

  function EndConsumer<V>(e: Ending): Consumer<V> {
    match e
    case EndPipe(tag) => Receive(tag)
    case EndSequenceAsWritten(_) => Ignore
    case EndSequence(tag) => Invoke(tag)
  }

  function AddLink<V>(w: World<V>, lhs: CellId, l: Link<V>): (r: (World<V>, CellId))
    requires Valid(w) && lhs < |w.cells|
    ensures Valid(r.0) && r.1 == |w.cells| && |r.0.cells| == |w.cells| + 1
    ensures w.cells[lhs].result.None? ==>
      && r.0.cells == w.cells[lhs := C.Cell(None, Some(Waiter(l, r.1)))] + [C.Empty()]
      && r.0.log == w.log && r.0.queue == w.queue
    ensures w.cells[lhs].result.Some? ==>
      var y := Out(l, w.cells[lhs].result.value);
      && r.0.cells[..|w.cells|] == w.cells[lhs := C.Cell(None, w.cells[lhs].waiting)]
      && r.0.log == w.log + [Ran(Tag(l))]
      && (TimingOf(l) == Now ==> r.0.cells[r.1] == C.Cell(Some(y), None) && r.0.queue == w.queue)
      && (TimingOf(l) == Later ==> r.0.cells[r.1] == C.Empty() && r.0.queue == w.queue + [Fire(r.1, y)])
  {
    match l
    case PipeLink(s) => Pipe(w, lhs, s)
    case SequenceLink(s) => Sequence(w, lhs, s)
  }

  function Terminate<V>(w: World<V>, lhs: CellId, e: Ending): (r: World<V>)
    requires Valid(w) && lhs < |w.cells|
    ensures Valid(r) && |r.cells| == |w.cells|
  {
    match e
    case EndPipe(tag) => PipeEnd(w, lhs, tag)
    case EndSequenceAsWritten(tag) => SequenceEndAsWritten(w, lhs, tag)
    case EndSequence(tag) => SequenceEnd(w, lhs, tag)
  }

  /** `asyncChain(src)` followed by the stages `links`, left to right, in a
      world with nothing else in it. Every stage gets a cell of its own. */
  function BuildChain<V>(src: Source<V>, links: seq<Link<V>>): (r: (World<V>, CellId))
    ensures Valid(r.0) && |r.0.cells| == |links| + 1 && r.1 == |links|
    decreases |links|
  {
    if |links| == 0 then AsyncChain(Start(), src)
    else
      var prev := BuildChain(src, links[..|links| - 1]);
      AddLink(prev.0, prev.1, links[|links| - 1])
  }

  /** The value a chain hands to its end: every stage applied in order. */
  function ChainValue<V>(src: Source<V>, ls: seq<Link<V>>): V
    decreases |ls|
  {
    if |ls| == 0 then src.out else Out(ls[|ls| - 1], ChainValue(src, ls[..|ls| - 1]))
  }

  /** Every stage of a chain run once, in program order. */
  function Trail<V>(src: Source<V>, ls: seq<Link<V>>): seq<Event<V>>
    decreases |ls|
  {
    if |ls| == 0 then [Ran(src.tag)] else Trail(src, ls[..|ls| - 1]) + [Ran(Tag(ls[|ls| - 1]))]
  }

  /** What the terminal form does with the chain's value. */
  function Final<V>(e: Ending, x: V): seq<Event<V>> {
    match e
    case EndPipe(tag) => [Received(tag, x)]
    case EndSequenceAsWritten(_) => []
    case EndSequence(tag) => [Ran(tag)]
  }

  lemma StepPrefix<V>(src: Source<V>, ls: seq<Link<V>>, p: nat)
    requires p < |ls|
    ensures ChainValue(src, ls[..p + 1]) == Out(ls[p], ChainValue(src, ls[..p]))
    ensures Trail(src, ls[..p + 1]) == Trail(src, ls[..p]) + [Ran(Tag(ls[p]))]
  {
    assert ls[..p + 1][..p] == ls[..p];
  }

  /** Cells `0 .. p-1` are spent, cells `p .. |ls|-1` hold the closures of the
      stages after them, and the log holds the stages run so far. */
  ghost predicate Layout<V>(w: World<V>, src: Source<V>, ls: seq<Link<V>>, p: nat) {
    && Valid(w)
    && |w.cells| == |ls| + 1 && p <= |ls|
    && w.log == Trail(src, ls[..p])
    && (forall i :: 0 <= i < p ==> w.cells[i] == C.Empty())
    && (forall i :: p <= i < |ls| ==> w.cells[i] == C.Cell(None, Some(Waiter(ls[i], i + 1))))
  }

  /** The value of stage `p` is on the main queue, about to be handed to cell `p`. */
  ghost predicate Queued<V>(w: World<V>, src: Source<V>, ls: seq<Link<V>>, p: nat, tail: Option<Consumer<V>>) {
    && Layout(w, src, ls, p)
    && w.cells[|ls|] == C.Cell(None, tail)
    && w.queue == [Fire(p, ChainValue(src, ls[..p]))]
  }

  /** As `Queued`, with the queued call just taken off the queue. */
  ghost predicate Ready<V>(w: World<V>, src: Source<V>, ls: seq<Link<V>>, p: nat, tail: Option<Consumer<V>>) {
    && Layout(w, src, ls, p)
    && w.cells[|ls|] == C.Cell(None, tail)
    && w.queue == []
  }

  /** Every stage so far completed synchronously: the value sits in the last cell. */
  ghost predicate Buffered<V>(w: World<V>, src: Source<V>, ls: seq<Link<V>>) {
    && Layout(w, src, ls, |ls|)
    && w.cells[|ls|] == C.Cell(Some(ChainValue(src, ls)), None)
    && w.queue == []
  }

  /** The chain has run to its end: every cell is spent, nothing is queued, and
      the log holds each stage once, in order, then the terminal's effect. */
  ghost predicate Finished<V>(w: World<V>, src: Source<V>, ls: seq<Link<V>>, e: Ending) {
    && Valid(w)
    && |w.cells| == |ls| + 1
    && (forall i :: 0 <= i <= |ls| ==> w.cells[i] == C.Empty())
    && w.queue == []
    && w.log == Trail(src, ls) + Final(e, ChainValue(src, ls))
  }

  /** `asyncChain(src)` in the empty world: a synchronous source leaves its
      value buffered, a deferred one leaves it on the main queue. */
  lemma StartChain<V>(src: Source<V>)
    ensures AsyncChain(Start(), src).1 == 0
    ensures src.timing == Now ==> Buffered(AsyncChain(Start(), src).0, src, [])
    ensures src.timing == Later ==> Queued(AsyncChain(Start(), src).0, src, [], 0, None)
  {
    var ls: seq<Link<V>> := [];
    assert ls[..0] == ls;
  }

  /** Adding a stage while the value is still on the main queue only registers
      the stage's closure. */
  lemma ExtendQueued<V>(w: World<V>, src: Source<V>, ls: seq<Link<V>>, p: nat, l: Link<V>)
    requires Queued(w, src, ls, p, None)
    ensures Queued(AddLink(w, |ls|, l).0, src, ls + [l], p, None)
  {
    var ls' := ls + [l];
    var r := AddLink(w, |ls|, l).0;
    assert ls'[..p] == ls[..p];
    assert r.cells == w.cells[|ls| := C.Cell(None, Some(Waiter(l, |ls| + 1)))] + [C.Empty()];
    forall i | p <= i < |ls'|
      ensures r.cells[i] == C.Cell(None, Some(Waiter(ls'[i], i + 1)))
    {
      if i < |ls| {
        assert ls'[i] == ls[i];
      }
    }
  }

  /** Adding a stage when the value is buffered runs the stage at once. */
  lemma ExtendBuffered<V>(w: World<V>, src: Source<V>, ls: seq<Link<V>>, l: Link<V>)
    requires Buffered(w, src, ls)
    ensures TimingOf(l) == Now ==> Buffered(AddLink(w, |ls|, l).0, src, ls + [l])
    ensures TimingOf(l) == Later ==> Queued(AddLink(w, |ls|, l).0, src, ls + [l], |ls| + 1, None)
  {
    var n := |ls|;
    var ls' := ls + [l];
    var r := AddLink(w, n, l).0;
    assert ls[..n] == ls && ls'[..n] == ls && ls'[..n + 1] == ls';
    StepPrefix(src, ls', n);
    assert ChainValue(src, ls') == Out(l, ChainValue(src, ls));
    assert r.cells[..n + 1] == w.cells[n := C.Empty()];
    forall i | 0 <= i < n + 1
      ensures r.cells[i] == C.Empty()
    {
      assert r.cells[i] == r.cells[..n + 1][i];
    }
  }

  /** Building a chain leaves its value either buffered in the last cell (every
      stage synchronous) or on the main queue for stage `p`. */
  lemma {:induction false} BuildChainState<V>(src: Source<V>, links: seq<Link<V>>) returns (p: nat, buffered: bool)
    ensures buffered ==> Buffered(BuildChain(src, links).0, src, links)
    ensures !buffered ==> Queued(BuildChain(src, links).0, src, links, p, None)
    decreases |links|
  {
    if |links| == 0 {
      StartChain(src);
      p, buffered := 0, src.timing == Now;
    } else {
      var ls := links[..|links| - 1];
      var l := links[|links| - 1];
      assert ls + [l] == links;
      var p0, b0 := BuildChainState(src, ls);
      var w := BuildChain(src, ls).0;
      if b0 {
        ExtendBuffered(w, src, ls, l);
        p, buffered := |ls| + 1, TimingOf(l) == Now;
      } else {
        ExtendQueued(w, src, ls, p0, l);
        p, buffered := p0, false;
      }
    }
  }

  /** Closing a chain whose value is still queued registers the terminal
      closure on the last cell. */
  lemma EndQueued<V>(w: World<V>, src: Source<V>, ls: seq<Link<V>>, p: nat, e: Ending)
    requires Queued(w, src, ls, p, None)
    ensures Queued(Terminate(w, |ls|, e), src, ls, p, Some(EndConsumer(e)))
  {
    var r := Terminate(w, |ls|, e);
    assert r == w.(cells := w.cells[|ls| := C.Cell(None, Some(EndConsumer(e)))]);
  }

  /** Closing a chain whose value is buffered hands the value to the terminal at once. */
  lemma EndBuffered<V>(w: World<V>, src: Source<V>, ls: seq<Link<V>>, e: Ending)
    requires Buffered(w, src, ls)
    ensures Finished(Terminate(w, |ls|, e), src, ls, e)
  {
    assert ls[..|ls|] == ls;
    var w1 := w.(cells := w.cells[|ls| := C.Empty()]);
    assert Terminate(w, |ls|, e) == Deliver(w1, |ls|, EndConsumer(e), ChainValue(src, ls));
  }

  /** Handing stage `p`'s value to cell `p` runs the following stages for as
      long as they complete synchronously: the chain either finishes or its
      value is next queued for a later stage. */
  lemma {:induction false} Cascade<V>(w: World<V>, src: Source<V>, ls: seq<Link<V>>, p: nat, e: Ending)
    returns (done: bool, q: nat)
    requires Ready(w, src, ls, p, Some(EndConsumer(e)))
    ensures done ==> Finished(Closure(w, p, ChainValue(src, ls[..p])), src, ls, e)
    ensures !done ==> p < q <= |ls| && Queued(Closure(w, p, ChainValue(src, ls[..p])), src, ls, q, Some(EndConsumer(e)))
    decreases |ls| - p
  {
    var x := ChainValue(src, ls[..p]);
    var w1 := w.(cells := w.cells[p := C.Empty()]);
    if p == |ls| {
      assert ls[..p] == ls;
      assert Closure(w, p, x) == Deliver(w1, p, EndConsumer(e), x);
      done, q := true, 0;
    } else {
      var l := ls[p];
      var y := Out(l, x);
      StepPrefix(src, ls, p);
      var w2 := w1.(log := w1.log + [Ran(Tag(l))]);
      assert Closure(w, p, x) == Deliver(w1, p, Waiter(l, p + 1), x);
      assert Deliver(w1, p, Waiter(l, p + 1), x) == Complete(w2, p + 1, y, TimingOf(l));
      assert Layout(w2, src, ls, p + 1);
      if TimingOf(l) == Now {
        done, q := Cascade(w2, src, ls, p + 1, e);
      } else {
        done, q := false, p + 1;
      }
    }
  }

  /** A finished chain leaves the main queue idle. */
  lemma DrainFinished<V>(w: World<V>, src: Source<V>, ls: seq<Link<V>>, e: Ending, fuel: nat)
    requires Finished(w, src, ls, e)
    ensures Drain(w, fuel) == w
  {}

  /** One turn of the main queue takes a queued chain's task off the queue
      and hands its value to its cell. */
  lemma QueuedFires<V>(w: World<V>, src: Source<V>, ls: seq<Link<V>>, p: nat, tail: Option<Consumer<V>>)
    requires Queued(w, src, ls, p, tail)
    ensures Ready(w.(queue := []), src, ls, p, tail)
    ensures FireNext(w) == Closure(w.(queue := []), p, ChainValue(src, ls[..p]))
  {
    assert w.queue[1..] == [];
  }

  /** With enough turns of the main queue, a chain whose value is queued runs to its end. */
  lemma {:induction false} DrainQueued<V>(w: World<V>, src: Source<V>, ls: seq<Link<V>>, p: nat, e: Ending, fuel: nat)
    requires Queued(w, src, ls, p, Some(EndConsumer(e)))
    requires fuel > |ls| - p
    ensures Finished(Drain(w, fuel), src, ls, e)
    decreases fuel
  {
    var w0 := w.(queue := []);
    var w' := FireNext(w);
    QueuedFires(w, src, ls, p, Some(EndConsumer(e)));
    var done, q := Cascade(w0, src, ls, p, e);
    if done {
      DrainFinished(w', src, ls, e, fuel - 1);
    } else {
      DrainQueued(w', src, ls, q, e, fuel - 1);
    }
  }

  /** End to end: `asyncChain(src)` followed by the stages `links` and closed
      by the terminal `e`, whatever mix of synchronous and deferred
      completions its functions use, runs every stage exactly once in program
      order, hands the terminal the composition of the stages applied to the
      source's value, and leaves every cell empty and the main queue idle once
      the main queue has run at most one task per stage. */
  lemma ChainRuns<V>(src: Source<V>, links: seq<Link<V>>, e: Ending)
    ensures Finished(Drain(Terminate(BuildChain(src, links).0, |links|, e), |links| + 1), src, links, e)
  {
    var w := BuildChain(src, links).0;
    var p, buffered := BuildChainState(src, links);
    var w' := Terminate(w, |links|, e);
    if buffered {
      EndBuffered(w, src, links, e);
      DrainFinished(w', src, links, e, |links| + 1);
    } else {
      EndQueued(w, src, links, p, e);
      DrainQueued(w', src, links, p, e, |links| + 1);
    }
  }
}

=== FILE: either.dfy ===
/** The `Either` success/failure sum type and its `fmap` / `flatMap`. */
module Either {

  /** Exactly one case is active: a success `Value` or a failure `Error`. */
  datatype Either<V, E> = Value(value: V) | Error(error: E)

  /** Map over the success case; an error is passed on with its payload unchanged. */
  function Fmap<V, E, R>(x: Either<V, E>, f: V -> R): (r: Either<R, E>)
    ensures r.Value? <==> x.Value?
    ensures x.Error? ==> r.error == x.error
  {
    match x
    case Value(v) => Value(f(v))
    case Error(e) => Error(e)
  }

  /** Flat-map over the success case: a value is handed to `f`, whose answer is
      returned verbatim; an error short-circuits. */
  function FlatMap<V, E, R>(x: Either<V, E>, f: V -> Either<R, E>): (r: Either<R, E>)
    ensures x.Error? ==> r == Error(x.error)
    ensures r.Value? ==> x.Value?
  {
    match x
    case Value(v) => f(v)
    case Error(e) => Error(e)
  }

  /** A value is transformed by the function. */
  lemma FmapValue<V, E, R>(v: V, f: V -> R)
    ensures Fmap(Either<V, E>.Value(v), f) == Value(f(v))
  {}

  /** An error is passed through untouched, whatever the function: it is never consulted. */
  lemma FmapError<V, E, R>(e: E, f: V -> R, g: V -> R)
    ensures Fmap(Either<V, E>.Error(e), f) == Error(e)
    ensures Fmap(Either<V, E>.Error(e), f) == Fmap(Either<V, E>.Error(e), g)
  {}

  /** Left identity: flat-mapping a value returns `f`'s answer verbatim, an error included. */
  lemma FlatMapValue<V, E, R>(v: V, f: V -> Either<R, E>)
    ensures FlatMap(Either<V, E>.Value(v), f) == f(v)
  {}

  /** An error short-circuits, whatever the function. */
  lemma FlatMapError<V, E, R>(e: E, f: V -> Either<R, E>, g: V -> Either<R, E>)
    ensures FlatMap(Either<V, E>.Error(e), f) == Error(e)
    ensures FlatMap(Either<V, E>.Error(e), f) == FlatMap(Either<V, E>.Error(e), g)
  {}

  /** Functor identity law. */
  lemma FmapIdentity<V, E>(x: Either<V, E>)
    ensures Fmap(x, (a: V) => a) == x
  {}

  /** Functor composition law. */
  lemma FmapComposition<A, B, C, E>(x: Either<A, E>, f: A -> B, g: B -> C)
    ensures Fmap(x, (a: A) => g(f(a))) == Fmap(Fmap(x, f), g)
  {}

  /** Right identity: flat-mapping with `Value` gives back the original. */
  lemma FlatMapRightIdentity<V, E>(x: Either<V, E>)
    ensures FlatMap(x, (a: V) => Value(a)) == x
  {}

  /** Associativity of flat-map. */
  lemma FlatMapAssociativity<A, B, C, E>(x: Either<A, E>, f: A -> Either<B, E>, g: B -> Either<C, E>)
    ensures FlatMap(FlatMap(x, f), g) == FlatMap(x, (a: A) => FlatMap(f(a), g))
  {}

  /** `fmap` is `flatMap` followed by `Value`: the reference definition of the functor. */
  lemma FmapIsFlatMapValue<V, E, R>(x: Either<V, E>, f: V -> R)
    ensures Fmap(x, f) == FlatMap(x, (a: V) => Value(f(a)))
  {}
}

=== FILE: future.dfy ===
/** The `Future` value type and its combinator algebra.

    A Swift `Future<V>` is nothing but its `get : (V -> ()) -> ()`: hand it a
    continuation and it will, eventually, call that continuation. Here the
    continuation returns an answer of type `R` instead of `()`, so a future is a
    total function `(V -> R) -> R`. Choosing `R` to be a trace of observations
    makes "the continuation ran exactly once, with this value" observable; the
    laws below hold for every `R`.

    Dafny does not identify two functions that agree pointwise, so the laws
    that re-associate or eta-expand continuations assume `Extensional`: the
    future observes its continuation only by calling it. */
module Future {

  import opened Optional
  import opened Either

  type Future<!V, !R> = (V -> R) -> R

  /** `f` delivers `v` exactly once and does nothing else: registering any
      continuation `k` gives exactly what `k(v)` gives. */
  ghost predicate Yields<V(!new), R(!new)>(f: Future<V, R>, v: V) {
    forall k :: f(k) == k(v)
  }

  /** `f` treats its continuation as a black box that it may only call. */
  ghost predicate Extensional<V(!new), R(!new)>(f: Future<V, R>) {
    forall k1: V -> R, k2: V -> R :: (forall a :: k1(a) == k2(a)) ==> f(k1) == f(k2)
  }

  /** A future that delivers exactly once is extensional. */
  lemma YieldsIsExtensional<V(!new), R(!new)>(f: Future<V, R>, v: V)
    requires Yields(f, v)
    ensures Extensional(f)
  {}

  /** `pure`: the continuation is invoked at once, on the caller's stack, with `v`. */
  function Pure<V(!new), R(!new)>(v: V): (r: Future<V, R>)
    ensures Yields(r, v)
  {
    (k: V -> R) => k(v)
  }

  /** `fmap`: register on `f` a continuation that transforms the value first. */
  function Fmap<A(!new), B(!new), R(!new)>(f: Future<A, R>, g: A -> B): (r: Future<B, R>)
    ensures forall a :: Yields(f, a) ==> Yields(r, g(a))
    ensures Extensional(f) ==> Extensional(r)
  {
    (k: B -> R) => f((a: A) => k(g(a)))
  }

  /** `flatMap`: once `f` delivers `a`, register on `g(a)` a continuation that
      forwards its value. */
  function FlatMap<A(!new), B(!new), R(!new)>(f: Future<A, R>, g: A -> Future<B, R>): (r: Future<B, R>)
    ensures forall a, b :: Yields(f, a) && Yields(g(a), b) ==> Yields(r, b)
    ensures Extensional(f) && (forall a :: Extensional(g(a))) ==> Extensional(r)
  {
    (k: B -> R) => f((a: A) => g(a)((b: B) => k(b)))
  }

  /** `<%>`: the infix spelling of `fmap`, function first. */
  function MapOp<A(!new), B(!new), R(!new)>(g: A -> B, f: Future<A, R>): (r: Future<B, R>)
    ensures forall a :: Yields(f, a) ==> Yields(r, g(a))
  {
    Fmap(f, g)
  }

  /** `<*>`: register on `rhs` first; once it delivers `a`, register on `lhs`;
      once that delivers `fn`, deliver `fn(a)`. */
  function Apply<A(!new), B(!new), R(!new)>(lhs: Future<A -> B, R>, rhs: Future<A, R>): (r: Future<B, R>)
    ensures forall fn, a :: Yields(lhs, fn) && Yields(rhs, a) ==> Yields(r, fn(a))
    ensures Extensional(lhs) && Extensional(rhs) ==> Extensional(r)
  {
    ApplyExtensional(lhs, rhs);
    (k: B -> R) => rhs((a: A) => lhs((fn: A -> B) => k(fn(a))))
  }

  /** `<*>` of two extensional futures is extensional: continuations that
      agree pointwise reach `lhs` and `rhs` as continuations that do too. */
  lemma ApplyExtensional<A(!new), B(!new), R(!new)>(lhs: Future<A -> B, R>, rhs: Future<A, R>)
    ensures Extensional(lhs) && Extensional(rhs) ==>
      Extensional((k: B -> R) => rhs((a: A) => lhs((fn: A -> B) => k(fn(a)))))
  {
    if Extensional(lhs) && Extensional(rhs) {
      var r := (k: B -> R) => rhs((a: A) => lhs((fn: A -> B) => k(fn(a))));
      forall k1: B -> R, k2: B -> R | forall b :: k1(b) == k2(b)
        ensures r(k1) == r(k2)
      {
        var c1 := (a: A) => lhs((fn: A -> B) => k1(fn(a)));
        var c2 := (a: A) => lhs((fn: A -> B) => k2(fn(a)));
        forall a: A
          ensures c1(a) == c2(a)
        {
          var d1 := (fn: A -> B) => k1(fn(a));
          var d2 := (fn: A -> B) => k2(fn(a));
          assert forall fn :: d1(fn) == d2(fn);
        }
      }
    }
  }

  /** `>>-` between futures: once `lhs` delivers `a`, hand the continuation to `rhs(a)`. */
  function Bind<A(!new), B(!new), R(!new)>(lhs: Future<A, R>, rhs: A -> Future<B, R>): (r: Future<B, R>)
    ensures forall a, b :: Yields(lhs, a) && Yields(rhs(a), b) ==> Yields(r, b)
    ensures Extensional(lhs) && (forall a :: Extensional(rhs(a))) ==> Extensional(r)
  {
    (k: B -> R) => lhs((a: A) => rhs(a)(k))
  }

  /** `>>|` between futures: once `lhs` delivers, whatever its value, call
      `rhs()` and hand it the continuation. */
  function Then<A(!new), B(!new), R(!new)>(lhs: Future<A, R>, rhs: () -> Future<B, R>): (r: Future<B, R>)
    ensures forall a, b :: Yields(lhs, a) && Yields(rhs(), b) ==> Yields(r, b)
    ensures Extensional(lhs) && Extensional(rhs()) ==> Extensional(r)
  {
    (k: B -> R) => lhs((_: A) => rhs()(k))
  }

  /** `>>-` with a plain consumer: the end of a chain, leaving the monad. */
  function Finish<A(!new), R(!new)>(lhs: Future<A, R>, rhs: A -> R): (r: R)
    ensures forall a :: Yields(lhs, a) ==> r == rhs(a)
  {
    lhs((a: A) => rhs(a))
  }

  /** `lift` into `Optional`: every delivered value is wrapped in `Some`. */
  function LiftOptional<A(!new), R(!new)>(f: Future<A, R>): (r: Future<Option<A>, R>)
    ensures forall a :: Yields(f, a) ==> Yields(r, Some(a))
    ensures Extensional(f) ==> Extensional(r)
  {
    (k: Option<A> -> R) => f((a: A) => k(Some(a)))
  }

  /** `lift` into `Either`: every delivered value is wrapped in `Value`. */
  function LiftEither<A(!new), E(!new), R(!new)>(f: Future<A, R>): (r: Future<Either<A, E>, R>)
    ensures forall a :: Yields(f, a) ==> Yields(r, Value(a))
    ensures Extensional(f) ==> Extensional(r)
  {
    (k: Either<A, E> -> R) => f((a: A) => k(Value(a)))
  }

  // ---------------------------------------------------------------------------
  // Laws, pointwise for every continuation k
  // ---------------------------------------------------------------------------

  /** Functor identity. */
  lemma FmapIdentity<A(!new), R(!new)>(f: Future<A, R>, k: A -> R)
    requires Extensional(f)
    ensures Fmap(f, (a: A) => a)(k) == f(k)
  {}

  /** Functor composition. */
  lemma FmapComposition<A(!new), B(!new), C(!new), R(!new)>(f: Future<A, R>, g: A -> B, h: B -> C, k: C -> R)
    requires Extensional(f)
    ensures Fmap(Fmap(f, g), h)(k) == Fmap(f, (a: A) => h(g(a)))(k)
  {}

  /** `fmap` is `>>-` followed by `pure`: the reference definition of the functor. */
  lemma FmapIsBindPure<A(!new), B(!new), R(!new)>(f: Future<A, R>, g: A -> B, k: B -> R)
    requires Extensional(f)
    ensures Fmap(f, g)(k) == Bind(f, (a: A) => Pure(g(a)))(k)
  {}

  /** Monad left identity: `pure(v) >>- g` is `g(v)`. */
  lemma BindLeftIdentity<A(!new), B(!new), R(!new)>(v: A, g: A -> Future<B, R>, k: B -> R)
    ensures Bind(Pure(v), g)(k) == g(v)(k)
  {}

  /** Monad right identity: `f >>- pure` is `f`. */
  lemma BindRightIdentity<A(!new), R(!new)>(f: Future<A, R>, k: A -> R)
    requires Extensional(f)
    ensures Bind(f, (a: A) => Pure(a))(k) == f(k)
  {}

  /** Monad associativity. */
  lemma BindAssociativity<A(!new), B(!new), C(!new), R(!new)>(f: Future<A, R>, g: A -> Future<B, R>, h: B -> Future<C, R>, k: C -> R)
    requires Extensional(f)
    ensures Bind(Bind(f, g), h)(k) == Bind(f, (a: A) => Bind(g(a), h))(k)
  {
    var c1 := (a: A) => g(a)((b: B) => h(b)(k));
    var c2 := (a: A) => Bind(g(a), h)(k);
    assert forall a :: c1(a) == c2(a);
    assert Bind(Bind(f, g), h)(k) == f(c1);
  }

  /** `flatMap` and `>>-` deliver the same: `flatMap` only eta-expands the
      continuation it passes on. */
  lemma FlatMapIsBind<A(!new), B(!new), R(!new)>(f: Future<A, R>, g: A -> Future<B, R>, k: B -> R)
    requires Extensional(f)
    requires forall a :: Extensional(g(a))
    ensures FlatMap(f, g)(k) == Bind(f, g)(k)
  {}

  /** `<%>` is `fmap` with its arguments swapped. */
  lemma MapOpIsFmap<A(!new), B(!new), R(!new)>(g: A -> B, f: Future<A, R>, k: B -> R)
    ensures MapOp(g, f)(k) == Fmap(f, g)(k)
  {}

  /** `<*>` is "bind the argument, then map the function over it". */
  lemma ApplyIsBindFmap<A(!new), B(!new), R(!new)>(lhs: Future<A -> B, R>, rhs: Future<A, R>, k: B -> R)
    requires Extensional(lhs)
    requires Extensional(rhs)
    ensures Apply(lhs, rhs)(k) == Bind(rhs, (a: A) => Fmap(lhs, (fn: A -> B) => fn(a)))(k)
  {}

  /** `>>|` is `>>-` with a function that ignores its argument. */
  lemma ThenIsBindConst<A(!new), B(!new), R(!new)>(lhs: Future<A, R>, rhs: () -> Future<B, R>, k: B -> R)
    requires Extensional(lhs)
    ensures Then(lhs, rhs)(k) == Bind(lhs, (_: A) => rhs())(k)
  {}

  /** `lift` into `Optional` is `fmap` with `Some`. */
  lemma LiftOptionalIsFmap<A(!new), R(!new)>(f: Future<A, R>, k: Option<A> -> R)
    requires Extensional(f)
    ensures LiftOptional(f)(k) == Fmap(f, (a: A) => Some(a))(k)
  {}

  /** `lift` into `Optional` never delivers `None`: what the continuation would
      do with `None` cannot affect the outcome. */
  lemma LiftOptionalNeverNone<A(!new), R(!new)>(f: Future<A, R>, k1: Option<A> -> R, k2: Option<A> -> R)
    requires Extensional(f)
    requires forall a :: k1(Some(a)) == k2(Some(a))
    ensures LiftOptional(f)(k1) == LiftOptional(f)(k2)
  {}

  /** `lift` into `Either` never delivers an `Error`: what the continuation would
      do with an error cannot affect the outcome. */
  lemma LiftEitherNeverError<A(!new), E(!new), R(!new)>(f: Future<A, R>, k1: Either<A, E> -> R, k2: Either<A, E> -> R)
    requires Extensional(f)
    requires forall a :: k1(Value(a)) == k2(Value(a))
    ensures LiftEither(f)(k1) == LiftEither(f)(k2)
  {}

  /** `>>|` ignores the value of `lhs`: changing what `lhs` delivers, by mapping
      any function over it, does not change the outcome. */
  lemma ThenIgnoresValue<A(!new), A'(!new), B(!new), R(!new)>(lhs: Future<A, R>, g: A -> A', rhs: () -> Future<B, R>, k: B -> R)
    requires Extensional(lhs)
    ensures Then(Fmap(lhs, g), rhs)(k) == Then(lhs, rhs)(k)
  {}

  /** Ending a bound chain is ending its left operand with a consumer that ends
      the right operand. */
  lemma FinishBind<A(!new), B(!new), R(!new)>(f: Future<A, R>, g: A -> Future<B, R>, k: B -> R)
    requires Extensional(f)
    ensures Finish(Bind(f, g), k) == Finish(f, (a: A) => Finish(g(a), k))
  {}

  // ---------------------------------------------------------------------------
  // Observing delivery and registration order through a trace
  // ---------------------------------------------------------------------------

  /** What a traced run records: a future being registered on, or the final
      continuation receiving a value. */
  datatype Observation<T> = Registered(tag: nat) | Got(value: T)

  type Trace<T> = seq<Observation<T>>

  /** The continuation the tests register: it records the value it receives. */
  function Probe<T(!new)>(): (T -> Trace<T>) {
    (v: T) => [Got(v)]
  }

  /** A future that records that it was registered on, then delivers `v`. */
  function Tagged<A(!new), T(!new)>(tag: nat, v: A): Future<A, Trace<T>> {
    (k: A -> Trace<T>) => [Registered(tag)] + k(v)
  }

  /** A future that delivers exactly once hands the probe exactly one value. */
  lemma YieldsObservedOnce<T(!new)>(f: Future<T, Trace<T>>, v: T)
    requires Yields(f, v)
    ensures f(Probe()) == [Got(v)]
  {}

  /** `<*>` registers on its right operand first, then on its left, and
      delivers `fn(a)` exactly once at the end. */
  lemma ApplyRegistersRhsFirst<A(!new), B(!new)>(lt: nat, rt: nat, fn: A -> B, a: A)
    ensures Apply(Tagged<A -> B, B>(lt, fn), Tagged<A, B>(rt, a))(Probe())
         == [Registered(rt), Registered(lt), Got(fn(a))]
  {}

  /** `>>|` registers on `rhs()` only from within `lhs`'s continuation, that is,
      after `lhs` has delivered. */
  lemma ThenRegistersRhsAfterLhs<A(!new), B(!new)>(lt: nat, rt: nat, a: A, b: B)
    ensures Then(Tagged<A, B>(lt, a), () => Tagged<B, B>(rt, b))(Probe())
         == [Registered(lt), Registered(rt), Got(b)]
  {}

  /** A future that never delivers: its answer ignores the continuation. */
  function Never<A(!new), R(!new)>(z: R): Future<A, R> {
    (k: A -> R) => z
  }

  /** If `lhs` never delivers, `rhs` is never called: the composite never
      delivers either. */
  lemma ThenWaitsForLhs<A(!new), B(!new), R(!new)>(z: R, rhs: () -> Future<B, R>, k: B -> R)
    ensures Then(Never<A, R>(z), rhs)(k) == z
  {}

  /** If `lhs` never delivers, `>>-` never calls its function. */
  lemma BindWaitsForLhs<A(!new), B(!new), R(!new)>(z: R, rhs: A -> Future<B, R>, k: B -> R)
    ensures Bind(Never<A, R>(z), rhs)(k) == z
  {}
}

=== FILE: optional.dfy ===
/** Swift's `Optional`: the type of the cell's two slots and the target of `lift`. */
module Optional {

  datatype Option<T> = None | Some(value: T)
}

=== FILE: scenarios.dfy ===
/** Scenarios stated over the model: the values the library's tests expect,
    the chains of its block-chaining tests and example controller, and two
    further dependent-step `>>-` chains built from the tests' `asyncAdd`. */
module Scenarios {

  import opened Optional
  import opened Either
  import F = Future
  import Ch = Chaining

  // ---------------------------------------------------------------------------
  // Either
  // ---------------------------------------------------------------------------

  /** `addIfEven(v)(w)`: `Value(v + w)` when `v` is even, otherwise the error
      "not even". A zero remainder means the same under Swift's truncating `%`
      and Dafny's Euclidean one. */
  function AddIfEven(v: int): (f: int -> Either<int, string>)
    ensures forall w :: f(w).Value? <==> v % 2 == 0
    ensures forall w :: f(w).Value? ==> f(w).value == v + w
    ensures forall w :: v % 2 != 0 ==> f(w) == Error("not even")
  {
    w => if v % 2 == 0 then Value(v + w) else Error("not even")
  }

  /** Map and flat-map on the test inputs. */
  lemma EitherScenarios()
    ensures Fmap(Either<int, string>.Value(2), (x: int) => x + 2) == Value(4)
    ensures Fmap(Either<int, string>.Error("bad fmap"), (x: int) => x + 2) == Error("bad fmap")
    ensures FlatMap(Either<int, string>.Value(6), AddIfEven(4)) == Value(10)
    ensures FlatMap(Either<int, string>.Error("bad flatmap"), AddIfEven(4)) == Error("bad flatmap")
    ensures FlatMap(Either<int, string>.Value(6), AddIfEven(3)) == Error("not even")
  {}

  // ---------------------------------------------------------------------------
  // Futures
  // ---------------------------------------------------------------------------

  /** `asyncAdd(a)(b)`: a future that delivers `a + b`. Its dispatch to the
      main queue only defers the call of the continuation, which a
      continuation-passing future does not observe. */
  function AsyncAdd<R(!new)>(a: int): (g: int -> F.Future<int, R>)
    ensures forall b :: g(b) == F.Pure(a + b)
    ensures forall b :: F.Yields(g(b), a + b)
  {
    b => F.Pure(a + b)
  }

  /** `pure(2)`, both lifts, `pure(3).fmap(add(2))` and `pure(3).flatMap(asyncAdd(5))`. */
  lemma FutureScenarios<R(!new)>()
    ensures F.Yields(F.Pure<int, R>(2), 2)
    ensures F.Yields(F.LiftOptional(F.Pure<int, R>(2)), Some(2))
    ensures F.Yields(F.LiftEither<int, string, R>(F.Pure<int, R>(3)), Value(3))
    ensures F.Yields(F.Fmap(F.Pure<int, R>(3), (b: int) => 2 + b), 5)
    ensures F.Yields(F.FlatMap(F.Pure<int, R>(3), AsyncAdd<R>(5)), 8)
  {
    assert F.Yields(AsyncAdd<R>(5)(3), 5 + 3);
  }

  /** `subtract <%> f <*> g` with `f` delivering 6 + 9 and `g` delivering
      3 + 5 delivers 15 - 8. The futures come from an adapter of a
      callback-taking function, so only what they deliver is assumed. */
  lemma ApplicativeScenario<R(!new)>(f: F.Future<int, R>, g: F.Future<int, R>)
    requires F.Yields(f, 15) && F.Yields(g, 8)
    ensures F.Yields(F.Apply(F.MapOp((a: int) => (b: int) => a - b, f), g), 7)
  {
    var sub := (a: int) => (b: int) => a - b;
    assert F.Yields(F.MapOp(sub, f), sub(15));
  }

  /** `pure(3) >>- f >>- g >>- asyncAdd(4)` where `f` adds 6 and `g` adds 7
      delivers 20. */
  lemma MonadicScenario<R(!new)>(f: int -> F.Future<int, R>, g: int -> F.Future<int, R>)
    requires forall x :: F.Yields(f(x), 6 + x)
    requires forall x :: F.Yields(g(x), 7 + x)
    ensures F.Yields(F.Bind(F.Bind(F.Bind(F.Pure<int, R>(3), f), g), AsyncAdd<R>(4)), 20)
  {
    var h1 := F.Bind(F.Pure<int, R>(3), f);
    assert F.Yields(f(3), 9);
    assert F.Yields(h1, 9);
    var h2 := F.Bind(h1, g);
    assert F.Yields(g(9), 16);
    assert F.Yields(h2, 16);
    assert F.Yields(AsyncAdd<R>(4)(16), 4 + 16);
  }

  /** A further chain built from the tests' `asyncAdd`, not one the tests run:
      `pure(2) >>- asyncAdd(3) >>- asyncAdd(7)` delivers 12. */
  lemma BindChainScenario<R(!new)>()
    ensures F.Yields(F.Bind(F.Bind(F.Pure<int, R>(2), AsyncAdd<R>(3)), AsyncAdd<R>(7)), 12)
  {
    assert F.Yields(AsyncAdd<R>(3)(2), 3 + 2);
    assert F.Yields(F.Bind(F.Pure<int, R>(2), AsyncAdd<R>(3)), 5);
    assert F.Yields(AsyncAdd<R>(7)(5), 7 + 5);
  }

  /** `>>-` applied left to right over a sequence of dependent steps:
      `f >>- steps[0] >>- steps[1] >>- …`. */
  function BindAll<R(!new)>(f: F.Future<int, R>, steps: seq<int -> F.Future<int, R>>): F.Future<int, R>
    decreases |steps|
  {
    if |steps| == 0 then f else BindAll(F.Bind(f, steps[0]), steps[1..])
  }

  function Sum(xs: seq<int>): int
    decreases |xs|
  {
    if |xs| == 0 then 0 else xs[0] + Sum(xs[1..])
  }

  /** Chaining with `>>-` steps that each add a constant delivers the start
      value plus all the constants, however many steps there are. */
  lemma {:induction false} BindAllAdds<R(!new)>(f: F.Future<int, R>, a: int, steps: seq<int -> F.Future<int, R>>, adds: seq<int>)
    requires F.Yields(f, a)
    requires |steps| == |adds|
    requires forall i, x :: 0 <= i < |steps| ==> F.Yields(steps[i](x), adds[i] + x)
    ensures F.Yields(BindAll(f, steps), a + Sum(adds))
    decreases |steps|
  {
    if |steps| > 0 {
      assert F.Yields(steps[0](a), adds[0] + a);
      var g := F.Bind(f, steps[0]);
      assert F.Yields(g, adds[0] + a);
      forall i, x | 0 <= i < |steps[1..]|
        ensures F.Yields(steps[1..][i](x), adds[1..][i] + x)
      {
        assert steps[1..][i] == steps[i + 1];
      }
      BindAllAdds(g, adds[0] + a, steps[1..], adds[1..]);
    }
  }

  /** A further chain built from the tests' `asyncAdd`, not one the tests run:
      `pure(0) >>- asyncAdd(7) >>- asyncAdd(9) >>- asyncAdd(14) >>- asyncAdd(3) >>- asyncAdd(6)` delivers 39. */
  lemma FoldScenario<R(!new)>()
    ensures F.Yields(BindAll(F.Pure<int, R>(0), [AsyncAdd<R>(7), AsyncAdd<R>(9), AsyncAdd<R>(14), AsyncAdd<R>(3), AsyncAdd<R>(6)]), 39)
  {
    var steps := [AsyncAdd<R>(7), AsyncAdd<R>(9), AsyncAdd<R>(14), AsyncAdd<R>(3), AsyncAdd<R>(6)];
    var adds := [7, 9, 14, 3, 6];
    forall i, x | 0 <= i < |steps|
      ensures F.Yields(steps[i](x), adds[i] + x)
    {
      assert steps[i] == AsyncAdd<R>(adds[i]);
      assert F.Yields(AsyncAdd<R>(adds[i])(x), adds[i] + x);
    }
    assert Sum(adds) == 39;
    BindAllAdds(F.Pure<int, R>(0), 0, steps, adds);
  }

  // ---------------------------------------------------------------------------
  // Block chaining
  // ---------------------------------------------------------------------------

  /** `asyncInt(r)`: completes with `r` from the main queue. */
  function AsyncInt(tag: nat, r: int): (s: Ch.Source<int>)
    ensures forall x :: Ch.Out(Ch.SequenceLink(s), x) == r
    ensures Ch.TimingOf(Ch.SequenceLink(s)) == Ch.Later && Ch.Tag(Ch.SequenceLink(s)) == tag
  {
    Ch.Source(tag, r, Ch.Later)
  }

  /** `>>> asyncAdd(i)`: completes with `i + j` from the main queue. */
  function AsyncAddStage(tag: nat, i: int): (l: Ch.Link<int>)
    ensures forall j :: Ch.Out(l, j) == i + j
    ensures Ch.TimingOf(l) == Ch.Later && Ch.Tag(l) == tag
  {
    Ch.PipeLink(Ch.Step(tag, (j: int) => i + j, Ch.Later))
  }

  /** `>>> asyncSubtract(i)`: completes with `j - i` from the main queue. */
  function AsyncSubtractStage(tag: nat, i: int): (l: Ch.Link<int>)
    ensures forall j :: Ch.Out(l, j) == j - i
    ensures forall j :: Ch.Out(l, Ch.Out(AsyncAddStage(tag, i), j)) == j
    ensures Ch.TimingOf(l) == Ch.Later && Ch.Tag(l) == tag
  {
    Ch.PipeLink(Ch.Step(tag, (j: int) => j - i, Ch.Later))
  }

  /** A cell fulfilled by a completion-style function, then read with `get`:
      whether the function completes at once or from the main queue, the
      reader receives 3 exactly once. */
  lemma CapturedCompletionScenario(timing: Ch.Timing)
    ensures Ch.Drain(Ch.Terminate(Ch.BuildChain(Ch.Source(0, 3, timing), []).0, 0, Ch.EndPipe(1)), 1).log
         == [Ch.Ran(0), Ch.Received(1, 3)]
  {
    var src := Ch.Source(0, 3, timing);
    var none: seq<Ch.Link<int>> := [];
    Ch.ChainRuns(src, none, Ch.EndPipe(1));
  }

  /** What a chain of a source and two stages logs, spelled out. */
  lemma TwoStages(src: Ch.Source<int>, a: Ch.Link<int>, b: Ch.Link<int>)
    ensures Ch.ChainValue(src, [a, b]) == Ch.Out(b, Ch.Out(a, src.out))
    ensures Ch.Trail(src, [a, b]) == [Ch.Ran(src.tag), Ch.Ran(Ch.Tag(a)), Ch.Ran(Ch.Tag(b))]
  {
    var ls := [a, b];
    var one := [a];
    assert ls[..1] == one && one[..0] == [];
    assert Ch.ChainValue(src, one) == Ch.Out(a, src.out);
    assert Ch.Trail(src, one) == [Ch.Ran(src.tag), Ch.Ran(Ch.Tag(a))];
  }

  /** `asyncChain(asyncInt(2)) >>> asyncAdd(7) >>> asyncAdd(9) >>> { sum in … }`:
      each stage runs once, in order, and the terminal receives 18. */
  lemma SumChainScenario()
    ensures Ch.Drain(Ch.Terminate(Ch.BuildChain(AsyncInt(0, 2), [AsyncAddStage(1, 7), AsyncAddStage(2, 9)]).0, 2, Ch.EndPipe(3)), 3).log
         == [Ch.Ran(0), Ch.Ran(1), Ch.Ran(2), Ch.Received(3, 18)]
  {
    Ch.ChainRuns(AsyncInt(0, 2), [AsyncAddStage(1, 7), AsyncAddStage(2, 9)], Ch.EndPipe(3));
    TwoStages(AsyncInt(0, 2), AsyncAddStage(1, 7), AsyncAddStage(2, 9));
  }

  /** `asyncChain(asyncInt(22)) >>> asyncSubtract(7) >>> asyncSubtract(9) >>> { … }`:
      the stages apply left to right, so the terminal receives (22 - 7) - 9 = 6. */
  lemma DifferenceChainScenario()
    ensures Ch.Drain(Ch.Terminate(Ch.BuildChain(AsyncInt(0, 22), [AsyncSubtractStage(1, 7), AsyncSubtractStage(2, 9)]).0, 2, Ch.EndPipe(3)), 3).log
         == [Ch.Ran(0), Ch.Ran(1), Ch.Ran(2), Ch.Received(3, 6)]
  {
    Ch.ChainRuns(AsyncInt(0, 22), [AsyncSubtractStage(1, 7), AsyncSubtractStage(2, 9)], Ch.EndPipe(3));
    TwoStages(AsyncInt(0, 22), AsyncSubtractStage(1, 7), AsyncSubtractStage(2, 9));
  }

  /** The shape of the example controller's chain:
      `asyncChain { present } >>| { animate } >>> { dismiss } >>| { done }`,
      every completion deferred. As written, the final block never runs:
      the log holds the three stages and nothing else. */
  lemma ClosingSequenceAsWritten()
    ensures var src := Ch.Source(0, 0, Ch.Later);
            var ls := [Ch.SequenceLink(Ch.Source(1, 0, Ch.Later)), Ch.PipeLink(Ch.Step(2, (x: int) => x, Ch.Later))];
            Ch.Drain(Ch.Terminate(Ch.BuildChain(src, ls).0, 2, Ch.EndSequenceAsWritten(3)), 3).log
              == [Ch.Ran(0), Ch.Ran(1), Ch.Ran(2)]
  {
    var src := Ch.Source(0, 0, Ch.Later);
    var ls := [Ch.SequenceLink(Ch.Source(1, 0, Ch.Later)), Ch.PipeLink(Ch.Step(2, (x: int) => x, Ch.Later))];
    Ch.ChainRuns(src, ls, Ch.EndSequenceAsWritten(3));
    TwoStages(src, ls[0], ls[1]);
  }

  /** The same chain with the closing `>>|` corrected: the final block runs
      once, after every other stage. */
  lemma ClosingSequenceCorrected()
    ensures var src := Ch.Source(0, 0, Ch.Later);
            var ls := [Ch.SequenceLink(Ch.Source(1, 0, Ch.Later)), Ch.PipeLink(Ch.Step(2, (x: int) => x, Ch.Later))];
            Ch.Drain(Ch.Terminate(Ch.BuildChain(src, ls).0, 2, Ch.EndSequence(3)), 3).log
              == [Ch.Ran(0), Ch.Ran(1), Ch.Ran(2), Ch.Ran(3)]
  {
    var src := Ch.Source(0, 0, Ch.Later);
    var ls := [Ch.SequenceLink(Ch.Source(1, 0, Ch.Later)), Ch.PipeLink(Ch.Step(2, (x: int) => x, Ch.Later))];
    Ch.ChainRuns(src, ls, Ch.EndSequence(3));
    TwoStages(src, ls[0], ls[1]);
  }
}
